=== FILE: README.md ===
# User registration backend — a verified model

This project models the core of a small Express/SQLite backend. The backend
registers leads, verifies their e-mail address with a one-time token, and
takes membership applications from verified leads. The parts modelled are:

- **The request-payload parser** (`src/utils/functions.ts`). It lines an
  untyped request body up with a table schema. Each entry becomes the body's
  value, or the missing marker when the column is write-protected, the key is
  absent or the value has the wrong JavaScript type.
- **The SQLite handler** (`src/utils/db.ts`). This is a class whose methods
  build the SQL text of CREATE TABLE, INSERT, UPDATE and SELECT statements
  and hand them to the database. A finished SELECT fills the handler's
  callback data.
- **The two request handlers** (`src/logic/registration.ts` and
  `src/logic/db.ts`). Each decides, from the request and the rows the
  database answers with, which database calls to make and which page to
  redirect to.
- **The legacy contact route** (`routes/index.js`). It renders a form as a
  YAML front-matter document and names the directory it is written to.

## How the model is built

- JavaScript values are a datatype `Js.JsValue`. It covers string, number,
  boolean, null, object and `undefined`, with `typeof`, truthiness and
  `String(v)` written out (`String(v)` of an array excepted, see "Left out").
- The string operations the code relies on are written out over
  `seq<char>` in module `Strings`. They are `indexOf`, `join`, `split`,
  `replace` with a string pattern (first occurrence only), `replace(/:/g, '')`,
  `substring` (clamping and swapping its arguments) and `String(n)`.
- `Db.Handler` is a class. The database it drives is an abstract sink: the
  field `executed` records every statement handed over, in order. Each method
  states the statements it appends and that nothing else changes. The SQL
  text is specified by functions, and the loops that build it are proved
  against them.
- The handlers are functions from the request, the table schemas, the fresh
  tokens and the database's answers to a `Reply`. A `Reply` holds the
  database calls made, the page redirected to, and whether an error is
  returned. `QueryLogic.MembershipQueryThroughHandler` runs one handler
  against a real `Db.Handler` and shows the decision read from its callback
  data.
- The handler functions (`Registration.Leadgen`, `Registration.Membership`,
  `QueryLogic.LeadgenQuery`, `QueryLogic.MembershipQuery` and the others)
  state the behaviour the handlers are meant to have:
  - they parse the request with `Functions.ParseRequestData`, which infers
    each column's type from its declared datatype. That is the corrected
    parser of the first "Findings" row; as written, the column name is used
    and every ordinary column comes out missing;
  - their `Reply` assumes every call returns, an `insertRows` call storing
    the record it is given.
- What the code does as written is an `Outcomes.Run`: it finishes with a
  reply, or a TypeError ends it after the call that threw, with no later
  call and no redirect. `Outcomes.AsWritten` makes a reply's calls as
  written. There `insertRows` throws on the list `[record]` the
  registration handler passes, and on a flat record holding a text of two
  or more characters, which the query handler passes (see "Findings").
  `Registration.LeadgenAsWrittenThrows`, `Registration.MembershipAsWritten`,
  `QueryLogic.LeadgenQueryAsWritten` and
  `QueryLogic.MembershipQueryAsWrittenLeavesOpen` state those runs.
- The registration runs above are as written with one step granted: the
  SELECT's answer is handed to the callback. As written, `select` calls the
  callback with no argument (`src/utils/db.ts:555`), and every registration
  callback reads `result` from that argument. `Registration.Unhanded` gives
  that literal run: it throws in the callback of its first SELECT (see
  "Findings").
- These are parameters of the model:
  - the SQL escaping function (`sqlstring`'s `escape`);
  - JavaScript's rendering of numbers as text;
  - the random tokens (`uid(16)`, `uid(32)`);
  - the platform line ending (`os.EOL`);
  - the clock reading (`Date.now()`).
- `Types.TableField` writes the schema field `datatype` as `dataType`,
  because `datatype` is a Dafny keyword.

## Model

| member | source | states |
|---|---|---|
| Js.TypeOf | src/utils/functions.ts:69 | `typeof` is one of five type names; it is "string" exactly for strings and "number" exactly for numbers |
| Js.TypeOfIsNeverNull | src/utils/functions.ts:69-73 | no value has `typeof` "null", so the undecided datatype never matches a body value |
| Strings.IndexOfFrom | src/utils/functions.ts:80-82 | `indexOf` returns -1 or an index where the pattern occurs, with no earlier occurrence |
| Strings.ContainsIff | src/utils/functions.ts:80-82 | `indexOf(p) !== -1` holds exactly when `p` occurs somewhere |
| Strings.MissingCharNotContained | src/utils/functions.ts:80-82 | a pattern with a character the text lacks is not found |
| Strings.Split | routes/index.js:31 | `split` with a non-empty separator always gives at least one piece |
| Strings.SplitJoin | src/utils/db.ts:236-244 | splitting undoes joining when no piece holds the separator and the separator cannot overlap itself |
| Strings.SplitHead | routes/index.js:31 | `split(' ')[0]` is the longest space-free prefix, and all of the text when it has no space |
| Strings.ReplaceFirstOnlyFirst | routes/index.js:25 | `replace` with a string pattern replaces the first occurrence only and keeps the rest verbatim |
| Strings.ReplaceFirstAbsent | routes/index.js:25 | `replace` without an occurrence changes nothing |
| Strings.RemoveChar | routes/index.js:20-23 | `replace(/:/g, '')` leaves no colon and keeps every other character, with its count |
| Strings.RemoveCharConcat | routes/index.js:20-23 | removal works piece by piece, so kept characters keep their order |
| Strings.RemoveCharAbsent | routes/index.js:20-23 | a colon-free text is left unchanged, so removal is idempotent |
| Strings.Substring | src/logic/registration.ts:83 | `substring` returns the slice from the smaller argument to the larger one, each clamped to the text, and exactly `s[start..end]` for in-range arguments |
| Strings.Decimal | routes/index.js:30 | `String(n)` of a non-negative integer is a non-empty run of digits |
| Strings.DecimalRoundTrip | routes/index.js:30 | reading the digits back gives the number |
| Types.ParseOperator | src/types/index.ts:215 | exactly the eight operator texts are accepted |
| Types.OperatorRoundTrip | src/types/index.ts:215 | an operator and its text determine each other |
| Types.ParseCondition | src/types/index.ts:250 | exactly the ten condition texts are accepted |
| Types.ConditionRoundTrip | src/types/index.ts:250 | a condition type and its text determine each other |
| Functions.ParseSQLiteDatatype | src/utils/functions.ts:79-85 | "string" iff the declaration mentions TEXT and not INTEGER; "number" iff the reverse; "null" iff both or neither |
| Functions.ParseEntry | src/utils/functions.ts:64-73 | an accepted entry is the body's value for the column and is a string or a number |
| Functions.ColumnNames | src/utils/functions.ts:57-59 | the column list has the schema's names in the schema's order |
| Functions.ParseRequestDataWith | src/utils/functions.ts:56-77 | for any inference argument: one entry per column in order, protected columns always missing, an unprotected entry kept iff its `typeof` matches, every entry missing or the body's own value |
| Functions.AcceptedEntriesAreData | src/utils/functions.ts:69-70 | an accepted entry is storable data and never null |
| Functions.UnknownKeysIgnored | src/utils/functions.ts:60-74 | bodies that agree on the schema's columns parse alike, so key order and extra keys do not matter |
| Functions.RestrictToColumns | src/utils/functions.ts:60-74 | the restricted body keeps exactly the keys that are column names |
| Functions.ExtraKeysDropped | src/utils/functions.ts:60-74 | dropping every key that is not a column name changes nothing |
| Functions.UndecidedIsMissing | src/utils/functions.ts:69-73 | a column whose inference string is undecided is always missing |
| Functions.AsWrittenPlainNameIsMissing | src/utils/functions.ts:69 | as written, a column whose name mentions neither TEXT nor INTEGER is always missing |
| Functions.AsWrittenLowercaseIsMissing | src/utils/functions.ts:69 | as written, every lower-case column name is always missing |
| Functions.TextColumnGate | src/utils/functions.ts:69-73 | inferring from the datatype, a TEXT column accepts a string and refuses anything else |
| Functions.IntegerColumnGate | src/utils/functions.ts:69-73 | inferring from the datatype, an INTEGER column accepts a number and refuses anything else |
| Functions.DeclarationPrefixDecides | src/utils/functions.ts:79-85 | a declaration starting with TEXT and not mentioning INTEGER asks for a string; one starting with INTEGER and not mentioning TEXT asks for a number |
| Functions.LowercaseIsUndecided | src/utils/functions.ts:79-85 | matching is case-sensitive: a lower-case declaration is undecided |
| Functions.SampleParsed | __test__/unit/util/functions.spec.ts:207-211 | a valid TEXT and INTEGER body passes both values through and ignores an extra key |
| Functions.SampleParsedAsWritten | src/utils/functions.ts:69 | as written, the same body has both entries missing |
| Db.Definitions | src/utils/db.ts:236-242 | one "column datatype" definition per field, in order |
| Db.ColumnDefinitions | src/utils/db.ts:235-242 | the loop builds the field definitions joined by ", " |
| Db.CreateTableDefinitionsRecovered | src/utils/db.ts:234-247 | the CREATE text starts with `CREATE TABLE IF NOT EXISTS name(`, ends with `)`, and what lies between splits back into the field definitions |
| Db.Placeholders | src/utils/db.ts:332-334 | one "?" per value |
| Db.EscapedRow | src/utils/db.ts:326-331 | strings are escaped and every other value is passed unchanged, position by position |
| Db.LongRows | src/utils/db.ts:325 | the kept rows are exactly the rows with more than one value |
| Db.LongRowsSnoc | src/utils/db.ts:324-325 | a row appended to the input is appended to the kept rows exactly when it has more than one value |
| Db.LongRowsConcat | src/utils/db.ts:324-325 | keeping rows distributes over concatenation, so the kept rows come in input order, each as often as it occurs |
| Db.InsertStatementsAreLongRows | src/utils/db.ts:324-340 | one INSERT per row of more than one value, in row order, and none for the others |
| Db.PlaceholderCount | src/utils/db.ts:332-338 | the placeholder list splits back into as many placeholders as values |
| Db.InsertStatementShape | src/utils/db.ts:319-340 | every INSERT has at least two parameters, as many placeholders as parameters, and the escaped row values as parameters |
| Db.InsertOutcome | src/utils/db.ts:319-340 | on what it is handed, `insertRows` throws exactly when `InsertThrows` says; a list of records always throws; a flat record that does not throw hands over nothing; the declared argument hands over one INSERT per long row |
| Db.InsertAsCalledStoresNothing | src/utils/db.ts:320-326 | as the handlers call it, `insertRows` never writes the record: `[record]` throws, and the record passed flat throws or hands over nothing |
| Db.SampleFlatRecordThrows | src/utils/db.ts:324-326 | the lead `{columns: ["name", "mailing_list"], rows: ["Harold", 1]}` passed flat throws |
| Db.RecordAsOneRowInserted | src/utils/db.ts:319-340 | the record passed as the one row of `{columns, rows: [values]}` is written by exactly one INSERT with its escaped values, or skipped when it has at most one value |
| Db.SetItems | src/utils/db.ts:429-433 | one " column = escaped value" item per assignment, in order |
| Db.SetClauseText | src/utils/db.ts:428-435 | the loop builds "SET " followed by the items separated by ", " |
| Db.SetClauseSeparated | src/utils/db.ts:428-435 | the SET clause splits back into its items and ends with the last one, with no trailing separator |
| Db.UpdateStatements | src/utils/db.ts:422-440 | one parameterless UPDATE per entry, in input order |
| Db.UpdateWhereIsEquality | src/utils/db.ts:436-438 | every UPDATE ends with an equality on the `where` column against the escaped value |
| Db.WhereClauseText | src/utils/db.ts:538-547 | the loop builds the base comparison followed by each extra condition's text |
| Db.ExtrasKeepPrefix | src/utils/db.ts:538-547 | extra conditions never change the leading base comparison |
| Db.ExtraConditionTwice | src/utils/db.ts:542-545 | each extra condition's keyword is emitted twice, once before its fragment and once at the fragment's start |
| Db.SelectDataVerbatim | src/utils/db.ts:538-548 | right after `SELECT columns FROM table WHERE column operator ` the SELECT text continues with the comparison's data itself, neither escaped nor quoted |
| Db.SelectQueryText | src/utils/db.ts:537-548 | the loop builds `SELECT columns FROM table WHERE condition` |
| Db.Completed | src/utils/db.ts:550-554 | a finished SELECT records the request, the error, the query text and the result |
| Db.Handler.constructor | src/utils/db.ts:85-87 | the filename is the given location (undefined when omitted, overriding the `:memory:` default), the callback data is the placeholder default, and nothing has run |
| Db.Handler.OpenDB | src/utils/db.ts:173-180 | opens the database at the handler's filename and changes nothing else |
| Db.Handler.CloseDB | src/utils/db.ts:565-568 | closes the database and changes nothing else |
| Db.Handler.CreateTable | src/utils/db.ts:234-250 | runs the CREATE statement and changes nothing else |
| Db.Handler.InsertRows | src/utils/db.ts:319-358 | runs one INSERT per row of more than one value, in order |
| Db.Handler.UpdateRows | src/utils/db.ts:422-459 | runs one UPDATE per entry, in order |
| Db.Handler.ReadOne | src/utils/db.ts:548-556 | issues one SELECT and leaves its answer in the callback data |
| Db.Handler.Select | src/utils/db.ts:535-558 | issues one SELECT per request in order; the callback data ends up holding the last answered one |
| Outcomes.AsWritten | src/utils/db.ts:319-326 | made as written, a reply finishes unchanged when no call throws, and otherwise ends right after its first throwing call, with every later call and the redirect undone |
| Registration.CleanString | src/logic/registration.ts:82-84 | drops the first and last character; texts shorter than two are returned unchanged |
| Registration.CleanStringUnquotes | src/logic/registration.ts:82-84 | cleaning undoes single-quoting |
| Registration.IndexOfColumn | src/logic/registration.ts:272 | `indexOf` on the columns gives the first matching index, or -1 exactly when the name is absent |
| Registration.SetSlot | src/logic/registration.ts:272 | writing through `indexOf` sets the first column of that name and changes nothing when there is none |
| Registration.AsWrittenNeverRejects | src/logic/registration.ts:274-280 | the filter as written keeps truthy entries only, so the missing marker is never found |
| Registration.AsWrittenMissesMissingName | src/logic/registration.ts:274-280 | a record without its name passes the check as written |
| Registration.KeptUnprotectedDetectsMissing | src/logic/registration.ts:274-280 | keeping every unprotected entry finds a missing one exactly when the record is incomplete |
| Registration.LeadData | src/logic/registration.ts:270-272 | the parsed lead with the fresh token in place keeps one entry per leads column |
| Registration.LeadgenAsWritten | src/logic/registration.ts:269-303 | as written, with the truthy-only check: every lead, however incomplete, gets the calls open, create, insert of `[leadData]`, close and the success page |
| Registration.LeadgenAsWrittenThrows | src/logic/registration.ts:274-301 | as written, every lead, however incomplete, reaches the insert of `[leadData]`, which throws: nothing is stored, the database is never closed and no page is sent |
| Registration.Leadgen | src/logic/registration.ts:269-303 | as meant: an incomplete lead is refused with an error and no database call; any other lead is opened, created, inserted and closed, then redirected to success |
| Registration.LeadgenStoresToken | src/logic/registration.ts:270-272 | the stored lead has the fresh token in its first `verification_token` slot and is otherwise as parsed |
| Registration.LeadgenRefusesMissingKey | src/logic/registration.ts:270-290 | an unprotected column the body lacks makes the lead be refused |
| Registration.Verification | src/logic/registration.ts:333-554 | a token that is absent or not a 32-character string is refused without a database call; otherwise the lead is looked up; success iff the stored token equals the given one, and then the calls after the lookup are exactly open, create, the token-spending UPDATE, close; every failed lookup makes exactly the open and the lookup and nothing else; the already-verified page is chosen iff there is no row or the token is spent, and any other failure is the invalid-data page |
| Registration.Assign | src/logic/registration.ts:376-392 | an assignment sets every entry of its column and keeps the others |
| Registration.AssignAll | src/logic/registration.ts:376-392 | assignments keep the row's length |
| Registration.ApplyUpdate | src/logic/registration.ts:376-392 | an UPDATE keeps the row's length |
| Registration.SpentTokenIsGone | src/logic/registration.ts:374-393 | after the verification UPDATE the row no longer holds the spent token |
| Registration.SecondVerificationFails | src/logic/registration.ts:370-393 | a token cannot verify twice |
| Registration.MembershipData | src/logic/registration.ts:558-561 | the parsed application has one entry per membership column |
| Registration.Membership | src/logic/registration.ts:556-700 | as meant: an incomplete application is refused with no database call; success iff complete, the lead matches and no applicant with that token exists; every other outcome is the invalid-data page with an error and neither creates the table nor inserts; when an applicant with that token exists, the calls are exactly open, both lookups, close |
| Registration.MembershipUnknownTokenRefused | src/logic/registration.ts:645-679 | as meant, a complete application whose lookup finds no lead closes the database and is sent to the invalid-data page |
| Registration.MembershipStores | src/logic/registration.ts:592-605 | as meant, a stored application makes both lookups, creates the table, inserts the application with the lead's token, and closes |
| Registration.MembershipClosesWhatItOpens | src/logic/registration.ts:592-698 | as meant, the database is closed exactly as often as it is opened, at most once |
| Registration.ApplicationCarriesUserToken | src/logic/registration.ts:598 | the stored application carries the request's own user token in its `user_token` slot |
| Registration.MembershipAsWritten | src/logic/registration.ts:556-700 | as written, with the answer handed to the callback: the truthy-only check, the three entries read before the found check, and the calls made as written; a run that finishes always ends on the invalid-data page with an error, never on the success page |
| Registration.MembershipAsWrittenNeverRefuses | src/logic/registration.ts:684-698 | as written, every application, however incomplete, opens the database and looks the lead up |
| Registration.MembershipAsWrittenUnknownTokenThrows | src/logic/registration.ts:645-648 | as written, with the answer handed to the callback, a lookup that finds no lead throws in the callback, after the open and the lookup and before any close or page |
| Registration.MembershipAsWrittenStoredThrows | src/logic/registration.ts:598-605 | as written, with the answer handed to the callback, an application that would be stored throws at the insert of `[membershipData]`: no close and no page |
| Registration.MembershipAsWrittenLeavesOpen | src/logic/registration.ts:592-698 | as written, with the answer handed to the callback, every run that throws has opened the database and never closes it |
| Registration.Unhanded | src/utils/db.ts:550-555 | a run with the callback handed no argument: unchanged when it has no SELECT; otherwise it throws right after its first SELECT, keeping the calls before it |
| Registration.LeadgenUnhanded | src/logic/registration.ts:296-299 | with no SELECT in a lead's run, the literal run still ends with the throw at the insert |
| Registration.VerificationUnhanded | src/logic/registration.ts:349-350 | literally, a well-shaped token never verifies: the run throws after the open and the lookup; any other token is refused without a database call |
| Registration.MembershipUnhanded | src/logic/registration.ts:645-646 | literally, every application throws right after the open and the lead lookup: no applicant lookup, no insert |
| QueryLogic.ProtectedColumnAlwaysMissing | src/logic/db.ts:47-49 | a schema with a protected column always yields a missing entry |
| QueryLogic.LeadgenQuery | src/logic/db.ts:46-74 | as meant: a lead with a missing entry is refused without database calls; otherwise open, create, insert, close; never an error |
| QueryLogic.LeadgenQueryAsWritten | src/logic/db.ts:60-70 | as written, an accepted lead throws at the insert exactly when `insertRows` cannot take one of its values as a row, leaving the database open with no page; otherwise nothing is inserted |
| QueryLogic.LeadgenQueryAsWrittenThrowsOnText | src/logic/db.ts:66 | as written, an accepted lead with a text entry of two or more characters, such as a name, throws at the insert |
| QueryLogic.LeadgenQueryStoresRequestValues | src/logic/db.ts:46-66 | the stored lead holds, column by column, the request's own string or number |
| QueryLogic.LeadgenQueryRefusesProtectedSchema | src/logic/db.ts:47-58 | a leads schema naming `verification_token` or `autokey` refuses every lead |
| QueryLogic.VerificationQuery | src/logic/db.ts:76-110 | only a numeric `autokey` touches the database, giving that lead the fresh token; anything else is the invalid-data page |
| QueryLogic.TokenUpdateTargetsKey | src/logic/db.ts:78-91 | the update sets the fresh token on the lead with that key and leaves any other lead untouched |
| QueryLogic.MembershipQuery | src/logic/db.ts:112-183 | as meant: an application with a missing entry is refused before opening; otherwise every branch opens, looks the lead up and ends by closing; success iff the answer is one row whose first value is a string equal to the request's token, and then the calls are exactly open, lookup, create, insert of the parsed application, close; any other answer makes exactly open, lookup, close, with the invalid-token page for a single row and the invalid-data page otherwise; no branch reports an error |
| QueryLogic.MembershipQueryClosesOnce | src/logic/db.ts:131-180 | as meant, past the check the database is opened once and closed once |
| QueryLogic.MembershipQueryAsWrittenLeavesOpen | src/logic/db.ts:145-155 | as written, the run throws exactly when the application would be stored and holds a value `insertRows` cannot take as a row; it then has opened the database, ends at the insert and never closes it |
| QueryLogic.MembershipQueryThroughHandler | src/logic/db.ts:131-180 | run on a fresh handler, the decision read from its callback data agrees with `MembershipQuery`, and exactly the open and the lookup are executed |
| QueryLogic.MembershipQueryRefusesProtectedSchema | src/logic/db.ts:174-176 | a membership schema naming a protected column refuses every application |
| Routes.Sanitized | routes/index.js:20-23 | a sanitized field has no colon and keeps every other character |
| Routes.Lines | routes/index.js:17-26 | the document has nine lines, opening and closing with `---` |
| Routes.FileContent | routes/index.js:17-26 | the document starts and ends with `---` and a line ending |
| Routes.TerminatedIsJoin | routes/index.js:17-26 | each line followed by the line ending equals the lines joined with one empty line after them |
| Routes.TextBlockUnbroken | routes/index.js:25 | a single-line text is put in the block unchanged |
| Routes.TextBlockIndentsFirstBreakOnly | routes/index.js:16-25 | only the first line break of the text is indented; later breaks are kept as they are |
| Routes.SanitizedKeepsColonFree | routes/index.js:20-23 | a colon-free field is rendered unchanged |
| Routes.SanitizedUnbroken | routes/index.js:20-23 | sanitizing adds no line break |
| Routes.AbsentFieldReadsUndefined | routes/index.js:20-23 | an absent field is rendered as the text `undefined` |
| Routes.FileContentReadsBack | routes/index.js:17-26 | with no line feed in any field, the document splits back into exactly its nine lines |
| Routes.FirstWord | routes/index.js:31 | the organization's first word has no space, is a prefix of the organization, and is all of it when it has no space |
| Routes.FullPathname | routes/index.js:33 | the file path is the directory followed by `index.md` |
| Routes.PathnameShape | routes/index.js:28-31 | the directory lies under the content root, starts with the timestamp, has no space, ends with `/`, and is one path segment when the first word has no `/` |
| Routes.PathnameTimestamp | routes/index.js:30 | the timestamp can be read back from the directory name |

## Left out

- SQLite itself is not modelled. Statements are recorded in `Db.Handler.executed`, and query answers are parameters.
- The asynchrony of `sqlite3` is left out. The model gives each SELECT's answer in order, as if every callback ran before the next call.
- Which value a stored text column answers with is left out, and the lookup answer is a parameter. This decides whether the stored token compares equal to the raw one at `src/logic/registration.ts:373`.
  - `insertRows` escapes (quotes) each text value and also binds it as a parameter.
  - The comment at `src/logic/registration.ts:358-360` says answers come back quoted, but `cleanString` is never called.
- `src/utils/db.ts:555` calls the callback without arguments. The registration callbacks (`src/logic/registration.ts:349`, 645, 660) then receive `undefined`. `Registration.Verification`, `Registration.MembershipAsWritten` and their lemmas hand them the answered result instead; `Registration.Unhanded` states the literal run (see "Findings"). `src/logic/db.ts` reads the handler's callback data and needs no such step.
- Reading past the end of `Object.entries(...)` throws in JavaScript. `Registration.MembershipAsWritten` models this throw in the lead callback. `Registration.Verification` and the handler functions as meant read such an entry as `undefined`. The verification lookup selects six columns, so its answer row always has the three entries read.
- The insert calls are recorded with the argument each call site passes (`Outcomes.DbCall`). `Db.InsertOutcome` says what `insertRows` does with it; they are not run through `Db.Handler.InsertRows`, whose declared argument type none of them has.
- Registration.Leadgen: states the behaviour as meant. As written, the insert throws before the database is closed and before the redirect, which `Registration.LeadgenAsWrittenThrows` states.
- Registration.Membership: states the behaviour as meant. As written, the completeness check refuses nothing (`Registration.MembershipAsWrittenNeverRefuses`), an unknown token throws in the lead callback, and the insert throws (`Registration.MembershipAsWritten`).
- Registration.MembershipStores: states the calls as meant. As written, the run ends with a throw at the insert, with no close, which `Registration.MembershipAsWrittenStoredThrows` states.
- Registration.MembershipClosesWhatItOpens: states the balance as meant. As written, the stored branch and the unknown-token branch throw with the database open, which `Registration.MembershipAsWrittenLeavesOpen` states.
- QueryLogic.LeadgenQuery: states the behaviour as meant. As written, the insert throws for a lead with a text of two or more characters, and otherwise writes nothing, which `QueryLogic.LeadgenQueryAsWritten` states.
- QueryLogic.MembershipQuery: states the behaviour as meant. As written, the stored branch throws at the insert under the same condition, which `QueryLogic.MembershipQueryAsWrittenLeavesOpen` states.
- QueryLogic.MembershipQueryClosesOnce: states the balance as meant. As written, a stored application that throws at the insert leaves the database open (`QueryLogic.MembershipQueryAsWrittenLeavesOpen`).
- QueryLogic.MembershipQueryAsWrittenLeavesOpen: a single-row answer with no entries reads as `undefined` here and gives the invalid-token page. In JavaScript `Object.entries(result)[0][1]` throws on it (`src/logic/db.ts:138`). A one-column SELECT never answers with such a row.
- Js.ToText: prints every object, arrays included, as `[object Object]`. JavaScript prints an array as its items joined by commas, so a form field that arrives as an array (a JSON array, or a repeated key in a URL-encoded body) is written differently into the contact file.
- Db.InsertOutcome: an object value in a flat record is taken to have no `length` and is skipped. An array of two or more items would be written as a row, but the parser never accepts object values.
- `Registration.Verification` leaves the database open on every failed lookup and opens it a second time for the update. Its contract states this as written, with the answer handed to the callback; literally the run throws in that callback (`Registration.VerificationUnhanded`).
- E-mail sending, template loading, `uid`, `escape`, `Date.now()`, `os.EOL`, `fs.mkdir`, `fs.writeFile`, `console.log` and the HTTP redirects are left out or parameters. A handler's redirect is its `Reply.page`.
- The table-definition record with `fields` and `protected` (`Types.TableDef`) is used by `src/logic/registration.ts` but not declared in `src/types/index.ts`.
- The unused `subscribe` field of the contact route is left out, as is the route's response.
- Routes.FileContent: the contract states the document's framing. Its full line structure is stated by `Routes.Lines` and `Routes.FileContentReadsBack`.
- Registration.AssignAll, Registration.ApplyUpdate: the contracts state only that the row length is kept. What the verification update does to a row is stated by `Registration.SpentTokenIsGone` and `QueryLogic.TokenUpdateTargetsKey`.

## Findings

| source | as written | input that shows it | evidently intended | confidence | as-written member | corrected member |
|---|---|---|---|---|---|---|
| src/utils/functions.ts:69 | the expected type is inferred from the column NAME, `parseSQLiteDatatype(column)` | the schema `name TEXT`, `mailing_list INTEGER` with body `{name: "Harold", mailing_list: 1}` parses to two missing entries | infer from the column's declared datatype, as the schema and the unit tests expect | high, not executed | Functions.SampleParsedAsWritten | Functions.SampleParsed |
| src/logic/registration.ts:274-280 | the filter callback returns the entry itself, so only truthy entries are kept and `indexOf(undefined)` never finds one | a lead whose `name` is missing (columns `["name"]`, rows `[undefined]`, nothing protected) passes the check and goes on to the insert | keep every unprotected entry, so a missing one is refused | high, not executed | Registration.AsWrittenMissesMissingName | Registration.KeptUnprotectedDetectsMissing |
| src/logic/registration.ts:684-690 | the membership check repeats the truthy-returning filter, so it refuses nothing | an application missing an unprotected entry opens the database and looks the lead up | refuse an incomplete application before opening the database | high, not executed | Registration.MembershipAsWrittenNeverRefuses | Registration.Membership |
| src/utils/db.ts:320-326 | `insertRows` reads `Object.entries(data)[1][1]` as a list of rows and calls `row.map` on each row longer than one, but every handler passes `[record]` or the record itself | `insertRows("leads", [leadData])`: `Object.entries([leadData])[1]` is `undefined`; the record `{columns: ["name", "mailing_list"], rows: ["Harold", 1]}` passed flat: `"Harold".map` is not a function | pass the record as the one row of `{columns, rows: [values]}`, which writes it with one INSERT | high, not executed | Db.InsertAsCalledStoresNothing | Db.RecordAsOneRowInserted |
| src/logic/registration.ts:645-648 | with the answer handed to it, the lead callback reads `Object.entries(callbackData.result)` before checking that a lead was found | a `user_token` no lead has: the result is `undefined` and `Object.entries(undefined)` throws, leaving the database open | close the database and send the invalid-data page, as the branch at lines 672-679 does | high, not executed | Registration.MembershipAsWrittenUnknownTokenThrows | Registration.MembershipUnknownTokenRefused |
| src/utils/db.ts:555 | `select` calls its callback with no argument, but every registration callback reads `result` from its own parameter | a verification request with a 32-character token: `callbackData` is `undefined`, so `callbackData.result` throws right after the lookup, and no token ever verifies; every membership application throws the same way in the lead callback | hand the callback the handler's callback data, which the query handler reads instead | high, not executed | Registration.VerificationUnhanded | Registration.Verification |

=== FILE: db.dfy ===
/**
 * The database handler: it turns schemas, rows, UPDATE and SELECT
 * descriptions into SQL text and hands that text to the database.
 *
 * The database itself is an abstract sink: the handler records, in order,
 * the statements it hands over (`executed`). The value escaping function of
 * the SQL library is a parameter `escape`, and the row a SELECT reads back
 * is given to the handler as an answer.
 */
module Db {
  import opened Wrappers
  import opened Strings
  import opened Js
  import opened Types
  import opened Functions

  /** What the handler asks of the database. */
  datatype Statement =
    | Open(filename: Option<string>)
    | Run(query: string, params: seq<Data>)
    | Get(query: string)
    | Close

  // ---- CREATE TABLE ----

  /** One column definition: name, a space, the declared type. */
  function Definition(f: TableField): string {
    f.column + " " + f.dataType
  }

  function Definitions(fields: seq<TableField>): (r: seq<string>)
    ensures |r| == |fields|
    ensures forall k :: 0 <= k < |fields| ==> r[k] == Definition(fields[k])
  {
    seq(|fields|, k requires 0 <= k < |fields| => Definition(fields[k]))
  }

  const CreatePrefix := "CREATE TABLE IF NOT EXISTS "

  /** The CREATE statement for a table: the definitions in field order, separated by ", ". */
  function CreateTableText(name: string, fields: seq<TableField>): string {
    CreatePrefix + name + "(" + Join(Definitions(fields), ", ") + ")"
  }

  /** Appending one element to a joined list appends the separator and the element. */
  lemma JoinSnoc(xs: seq<string>, x: string, sep: string)
    requires |xs| > 0
    ensures Join(xs + [x], sep) == Join(xs, sep) + sep + x
  {
    assert (xs + [x])[..|xs|] == xs;
  }

  /** The definition list, built by the accumulating loop of `createTable`. */
  method ColumnDefinitions(fields: seq<TableField>) returns (columns: string)
    ensures columns == Join(Definitions(fields), ", ")
  {
    columns := "";
    var i := 0;
    while i < |fields|
      invariant 0 <= i <= |fields|
      invariant columns == Join(Definitions(fields[..i]), ", ")
    {
      var defs := Definitions(fields[..i]);
      assert Definitions(fields[..i + 1]) == defs + [Definition(fields[i])];
      if i == 0 {
        columns := Definition(fields[i]);
      } else {
        JoinSnoc(defs, Definition(fields[i]), ", ");
        columns := columns + ", " + Definition(fields[i]);
      }
      i := i + 1;
    }
    assert fields[..i] == fields;
  }

  /**
   * The CREATE text can be read back: after the fixed prefix, the name and
   * "(", the text up to the closing ")" splits on ", " into exactly the
   * field definitions, in field order, when no definition contains ", ".
   */
  lemma CreateTableDefinitionsRecovered(name: string, fields: seq<TableField>)
    requires |fields| > 0
    requires forall k :: 0 <= k < |fields| ==> !Contains(Definition(fields[k]), ", ")
    ensures var t := CreateTableText(name, fields);
      var p := |CreatePrefix + name + "("|;
      p < |t| && t[..p] == CreatePrefix + name + "(" && t[|t| - 1] == ')'
      && Split(t[p..|t| - 1], ", ") == Definitions(fields)
  {
    var t := CreateTableText(name, fields);
    var head := CreatePrefix + name + "(";
    var body := Join(Definitions(fields), ", ");
    assert t == head + body + ")";
    assert t[..|head|] == head;
    assert t[|head|..|t| - 1] == body;
    SplitJoin(Definitions(fields), ", ");
  }

  // ---- INSERT ----

  /** One "?" per value. */
  function Placeholders(n: nat): (r: seq<string>)
    ensures |r| == n
    ensures forall k :: 0 <= k < n ==> r[k] == "?"
  {
    seq(n, k => "?")
  }

  /** The INSERT for a row of `n` values: columns joined by ",", then `n` placeholders joined by ",". */
  function InsertText(table: string, columns: seq<string>, n: nat): string {
    "INSERT INTO " + table + "(" + Join(columns, ",") + ") VALUES (" + Join(Placeholders(n), ",") + ")"
  }

  /** The parameter for one value: strings go through `escape`, numbers and null as they are. */
  function EscapeValue(v: Data, escape: Data -> string): Data {
    if v.Str? then Str(escape(v)) else v
  }

  /** The parameters for one row. */
  function EscapedRow(row: RowType, escape: Data -> string): (r: seq<Data>)
    ensures |r| == |row|
    ensures forall k :: 0 <= k < |row| && row[k].Str? ==> r[k] == Str(escape(row[k]))
    ensures forall k :: 0 <= k < |row| && !row[k].Str? ==> r[k] == row[k]
  {
    seq(|row|, k requires 0 <= k < |row| => EscapeValue(row[k], escape))
  }

  function InsertStatement(table: string, columns: seq<string>, row: RowType, escape: Data -> string): Statement {
    Run(InsertText(table, columns, |row|), EscapedRow(row, escape))
  }

  /** The statements `insertRows` hands over for `rows`, in row order; a row of at most one value is skipped. */
  function InsertStatements(table: string, columns: seq<string>, rows: seq<RowType>, escape: Data -> string): seq<Statement> {
    if rows == [] then []
    else
      var last := rows[|rows| - 1];
      InsertStatements(table, columns, rows[..|rows| - 1], escape)
        + (if |last| > 1 then [InsertStatement(table, columns, last, escape)] else [])
  }

  /** The rows `insertRows` actually writes: those with more than one value, in order. */
  function LongRows(rows: seq<RowType>): (r: seq<RowType>)
    ensures |r| <= |rows|
    ensures forall k :: 0 <= k < |r| ==> |r[k]| > 1 && r[k] in rows
    ensures forall k :: 0 <= k < |rows| && |rows[k]| > 1 ==> rows[k] in r
  {
    if rows == [] then []
    else
      var init := rows[..|rows| - 1];
      var last := rows[|rows| - 1];
      assert rows == init + [last];
      LongRows(init) + (if |last| > 1 then [last] else [])
  }

  /**
   * `insertRows` hands over exactly one INSERT per row longer than one
   * value, in row order, and nothing for the other rows.
   */
  lemma {:induction false} InsertStatementsAreLongRows(table: string, columns: seq<string>, rows: seq<RowType>, escape: Data -> string)
    ensures var s := InsertStatements(table, columns, rows, escape);
      var l := LongRows(rows);
      |s| == |l| && forall k :: 0 <= k < |l| ==> s[k] == InsertStatement(table, columns, l[k], escape)
  {
    if rows != [] {
      InsertStatementsAreLongRows(table, columns, rows[..|rows| - 1], escape);
    }
  }

  /** The placeholder list of a row of `n > 0` values splits back into `n` placeholders. */
  lemma PlaceholderCount(n: nat)
    requires n > 0
    ensures |Split(Join(Placeholders(n), ","), ",")| == n
  {
    var ps := Placeholders(n);
    forall k | 0 <= k < n
      ensures !Contains(ps[k], ",")
    {
      MissingCharNotContained(ps[k], ",", ',');
    }
    SplitJoin(ps, ",");
  }

  /**
   * Every INSERT handed over has at least two parameters, as many
   * placeholders as parameters, and each parameter is the escaped value of
   * the row at the same position.
   */
  lemma InsertStatementShape(table: string, columns: seq<string>, rows: seq<RowType>, escape: Data -> string, k: int)
    requires 0 <= k < |LongRows(rows)|
    ensures var s := InsertStatements(table, columns, rows, escape);
      var row := LongRows(rows)[k];
      k < |s| && s[k].Run? && |s[k].params| == |row| > 1
      && s[k].query == InsertText(table, columns, |row|)
      && |Split(Join(Placeholders(|row|), ","), ",")| == |s[k].params|
      && forall j :: 0 <= j < |row| ==> s[k].params[j] == EscapeValue(row[j], escape)
  {
    InsertStatementsAreLongRows(table, columns, rows, escape);
    PlaceholderCount(|LongRows(rows)[k]|);
  }

  /** Appending a row appends it to the kept rows exactly when it is longer than one value. */
  lemma LongRowsSnoc(rows: seq<RowType>, x: RowType)
    ensures LongRows(rows + [x]) == LongRows(rows) + (if |x| > 1 then [x] else [])
  {
    assert (rows + [x])[..|rows|] == rows;
  }

  /**
   * Keeping the long rows distributes over concatenation: the kept rows
   * come in input order, each as often as it occurs.
   */
  lemma {:induction false} LongRowsConcat(a: seq<RowType>, b: seq<RowType>)
    ensures LongRows(a + b) == LongRows(a) + LongRows(b)
    decreases |b|
  {
    if b == [] {
      assert a + b == a;
    } else {
      var init := b[..|b| - 1];
      var x := b[|b| - 1];
      assert b == init + [x];
      assert a + b == (a + init) + [x];
      LongRowsConcat(a, init);
      LongRowsSnoc(a + init, x);
      LongRowsSnoc(init, x);
    }
  }

  // ---- What the handlers hand to INSERT ----

  /**
   * The argument a call site hands `insertRows`: the declared
   * `{columns, rows}` whose `rows` is a list of rows; a parsed record itself,
   * whose `rows` holds one value per column; or a list holding parsed
   * records.
   */
  datatype InsertArgument =
    | Declared(fields: RowFields)
    | FlatRecord(record: ParsedRow)
    | RecordList(records: seq<ParsedRow>)

  /** How `insertRows` ends: the statements it hands over, or a TypeError thrown before any of them. */
  datatype Insertion = Inserted(statements: seq<Statement>) | Threw

  /**
   * One value of a flat record taken as a row: `row.length` throws on
   * `undefined` and `null`, and a text longer than one character passes
   * `row.length > 1` but has no `map`. Numbers, booleans and one-character
   * texts are skipped.
   */
  predicate ValueThrows(v: Option<JsValue>) {
    match v
    case None => true
    case Some(x) => x.Undefined? || x.Null? || (x.Str? && |x.s| > 1)
  }

  /**
   * Whether `insertRows` throws on its argument. `Object.entries(list)[1]`
   * is `undefined` for a list of fewer than two records, and for a longer
   * list the "rows" it reads is a record, which has no `forEach`; a flat
   * record throws at a value that `ValueThrows`.
   */
  predicate InsertThrows(arg: InsertArgument) {
    match arg
    case Declared(_) => false
    case FlatRecord(record) => exists k :: 0 <= k < |record.rows| && ValueThrows(record.rows[k])
    case RecordList(_) => true
  }

  /**
   * `insertRows` on what it is handed: the INSERTs for the long rows of a
   * declared argument, a TypeError for a list of records, and for a flat
   * record either a TypeError or, when every value is skipped, nothing.
   */
  function InsertOutcome(table: string, arg: InsertArgument, escape: Data -> string): (r: Insertion)
    ensures r.Threw? <==> InsertThrows(arg)
    ensures arg.RecordList? ==> r == Threw
    ensures arg.FlatRecord? && r.Inserted? ==> r.statements == []
    ensures arg.Declared? ==> r.Inserted? && |r.statements| == |LongRows(arg.fields.rows)|
  {
    match arg
    case Declared(f) =>
      InsertStatementsAreLongRows(table, f.columns, f.rows, escape);
      Inserted(InsertStatements(table, f.columns, f.rows, escape))
    case FlatRecord(_) => if InsertThrows(arg) then Threw else Inserted([])
    case RecordList(_) => Threw
  }

  /**
   * As the handlers call it, `insertRows` never writes a record: a list
   * holding one record always throws, and the record handed over flat
   * either throws or hands over no statement.
   */
  lemma InsertAsCalledStoresNothing(table: string, record: ParsedRow, escape: Data -> string)
    ensures InsertOutcome(table, RecordList([record]), escape) == Threw
    ensures InsertOutcome(table, FlatRecord(record), escape) == Threw
      || InsertOutcome(table, FlatRecord(record), escape) == Inserted([])
  {
  }

  /** The lead `{columns: ["name", "mailing_list"], rows: ["Harold", 1]}` handed over flat throws at `"Harold".map`. */
  lemma SampleFlatRecordThrows(table: string, escape: Data -> string)
    ensures InsertOutcome(table, FlatRecord(ParsedRow(["name", "mailing_list"], [Some(Str("Harold")), Some(Num(1.0))])), escape) == Threw
  {
    var record := ParsedRow(["name", "mailing_list"], [Some(Str("Harold")), Some(Num(1.0))]);
    assert ValueThrows(record.rows[0]);
  }

  /**
   * The record handed over as the one row of the declared argument is
   * written by exactly one INSERT carrying its escaped values, unless it has
   * at most one value, which `insertRows` skips.
   */
  lemma RecordAsOneRowInserted(table: string, columns: seq<string>, values: RowType, escape: Data -> string)
    ensures |values| > 1 ==>
      InsertOutcome(table, Declared(RowFields(columns, [values])), escape) == Inserted([InsertStatement(table, columns, values, escape)])
    ensures |values| <= 1 ==> InsertOutcome(table, Declared(RowFields(columns, [values])), escape) == Inserted([])
  {
    assert [values][..0] == [];
  }

  // ---- UPDATE ----

  /** One assignment of the SET clause: a space, the column, " = ", the escaped value. */
  function SetItem(a: Assignment, escape: Data -> string): string {
    " " + a.column + " = " + escape(a.data)
  }

  function SetItems(sets: seq<Assignment>, escape: Data -> string): (r: seq<string>)
    ensures |r| == |sets|
    ensures forall k :: 0 <= k < |sets| ==> r[k] == SetItem(sets[k], escape)
  {
    seq(|sets|, k requires 0 <= k < |sets| => SetItem(sets[k], escape))
  }

  /** The SET clause: "SET " and the assignments separated by ", ". */
  function SetClause(sets: seq<Assignment>, escape: Data -> string): string {
    "SET " + Join(SetItems(sets, escape), ", ")
  }

  /** The UPDATE for one entry: the SET clause and an equality on the escaped `where` value. */
  function UpdateText(table: string, u: RowFieldUpdate, escape: Data -> string): string {
    "UPDATE " + table + " " + SetClause(u.sets, escape) + " WHERE " + u.where.column + " = " + escape(u.where.data)
  }

  /** The SET clause of a longer list extends that of its prefix by the separator and one assignment. */
  lemma SetClauseSnoc(sets: seq<Assignment>, i: nat, escape: Data -> string)
    requires 0 < i < |sets|
    ensures SetClause(sets[..i + 1], escape) == SetClause(sets[..i], escape) + ", " + SetItem(sets[i], escape)
  {
    var items := SetItems(sets[..i], escape);
    assert SetItems(sets[..i + 1], escape) == items + [SetItem(sets[i], escape)];
    JoinSnoc(items, SetItem(sets[i], escape), ", ");
  }

  /** The SET clause, built by the accumulating loop of `updateRows`. */
  method SetClauseText(sets: seq<Assignment>, escape: Data -> string) returns (setQuery: string)
    ensures setQuery == SetClause(sets, escape)
  {
    setQuery := "SET ";
    var i := 0;
    while i < |sets|
      invariant 0 <= i <= |sets|
      invariant i == 0 ==> setQuery == "SET "
      invariant 0 < i < |sets| ==> setQuery == SetClause(sets[..i], escape) + ", "
      invariant 0 < i == |sets| ==> setQuery == SetClause(sets[..i], escape)
    {
      var item := SetItem(sets[i], escape);
      if i == 0 {
        assert SetItems(sets[..1], escape) == [item];
      } else {
        SetClauseSnoc(sets, i, escape);
      }
      if i + 1 != |sets| {
        setQuery := setQuery + item + ", ";
      } else {
        setQuery := setQuery + item;
      }
      i := i + 1;
    }
    assert sets[..i] == sets;
  }

  /**
   * The SET clause lists every assignment in order: after "SET " it splits
   * on ", " into exactly the assignments, so there is no trailing
   * separator, and it ends with the last assignment.
   */
  lemma SetClauseSeparated(sets: seq<Assignment>, escape: Data -> string)
    requires |sets| > 0
    requires forall k :: 0 <= k < |sets| ==> !Contains(SetItem(sets[k], escape), ", ")
    ensures var c := SetClause(sets, escape);
      var last := SetItem(sets[|sets| - 1], escape);
      c[..4] == "SET " && Split(c[4..], ", ") == SetItems(sets, escape)
      && |last| <= |c| && c[|c| - |last|..] == last
  {
    var items := SetItems(sets, escape);
    var j := Join(items, ", ");
    var last := items[|items| - 1];
    SplitJoin(items, ", ");
    if |items| > 1 {
      EndsWith(Join(items[..|items| - 1], ", ") + ", ", last);
    }
    assert |last| <= |j| && j[|j| - |last|..] == last;
    PrefixThenSuffix("SET ", j, last);
  }

  /** A text ends with what was appended to it. */
  lemma EndsWith(a: string, b: string)
    ensures |b| <= |a + b| && (a + b)[|a + b| - |b|..] == b
  {
  }

  /** Prefixing a text that ends with `last` keeps the prefix readable at the front and `last` at the end. */
  lemma PrefixThenSuffix(p: string, j: string, last: string)
    requires |last| <= |j| && j[|j| - |last|..] == last
    ensures (p + j)[..|p|] == p && (p + j)[|p|..] == j
    ensures |last| <= |p + j| && (p + j)[|p + j| - |last|..] == last
  {
    assert (p + j)[|p + j| - |last|..] == j[|j| - |last|..];
  }

  /** The statements `updateRows` hands over: one UPDATE per entry, in input order, without parameters. */
  function UpdateStatements(table: string, data: seq<RowFieldUpdate>, escape: Data -> string): (r: seq<Statement>)
    ensures |r| == |data|
    ensures forall k :: 0 <= k < |data| ==> r[k] == Run(UpdateText(table, data[k], escape), [])
  {
    seq(|data|, k requires 0 <= k < |data| => Run(UpdateText(table, data[k], escape), []))
  }

  /** The WHERE of an UPDATE is always an equality on the `where` column with the escaped value, at the very end. */
  lemma UpdateWhereIsEquality(table: string, u: RowFieldUpdate, escape: Data -> string)
    ensures var t := UpdateText(table, u, escape);
      var w := " WHERE " + u.where.column + " = " + escape(u.where.data);
      |w| <= |t| && t[|t| - |w|..] == w
  {
    var t := UpdateText(table, u, escape);
    var w := " WHERE " + u.where.column + " = " + escape(u.where.data);
    assert t == ("UPDATE " + table + " " + SetClause(u.sets, escape)) + w;
  }

  // ---- SELECT ----

  /** A comparison: column, operator and data separated by spaces; the data is not escaped. */
  function ComparisonText(q: SelectQuery): string {
    q.column + " " + OperatorText(q.operator) + " " + q.data
  }

  /** The line break and indentation inside an extra condition's text. */
  const ConditionBreak := " \n                    "

  /** The text an extra condition builds for itself: its relation, a line break, its comparison. */
  function ConditionFragment(e: ExtraSelectQuery): string {
    ConditionText(e.conditionType) + ConditionBreak + ComparisonText(e.conditionQuery)
  }

  /** What appending one extra condition adds: a space, its relation, a space, its own text. */
  function ExtraText(e: ExtraSelectQuery): string {
    " " + ConditionText(e.conditionType) + " " + ConditionFragment(e)
  }

  /** The WHERE text: the comparison `q`, then the extra conditions `es` appended in order. */
  function ExtrasText(q: SelectQuery, es: seq<ExtraSelectQuery>): string {
    if es == [] then ComparisonText(q)
    else ExtrasText(q, es[..|es| - 1]) + ExtraText(es[|es| - 1])
  }

  /** The WHERE text of a SELECT; a missing and an empty list of extra conditions both add nothing. */
  function WhereText(w: WhereClause): string {
    ExtrasText(w.query, if w.extraConditions.Some? then w.extraConditions.value else [])
  }

  /** The SELECT: the columns joined by ", ", the table, and the WHERE text. */
  function SelectText(table: string, s: SelectField): string {
    "SELECT " + Join(s.columnsToSelect, ", ") + " FROM " + table + " WHERE " + WhereText(s.where)
  }

  /** The WHERE text, built by the accumulating loop of `select`. */
  method WhereClauseText(w: WhereClause) returns (whereQuery: string)
    ensures whereQuery == WhereText(w)
  {
    whereQuery := w.query.column + " " + OperatorText(w.query.operator) + " " + w.query.data;
    if w.extraConditions.Some? {
      var es := w.extraConditions.value;
      var i := 0;
      while i < |es|
        invariant 0 <= i <= |es|
        invariant whereQuery == ExtrasText(w.query, es[..i])
      {
        var conditionQuery := ConditionFragment(es[i]);
        assert es[..i + 1] == es[..i] + [es[i]];
        ExtrasSnoc(w.query, es[..i], es[i]);
        Regroup(whereQuery, " ", ConditionText(es[i].conditionType), " ", conditionQuery);
        whereQuery := whereQuery + " " + ConditionText(es[i].conditionType) + " " + conditionQuery;
        i := i + 1;
      }
      assert es[..i] == es;
    }
  }

  /** Appending extra conditions never changes what came before: the base comparison always leads. */
  lemma {:induction false} ExtrasKeepPrefix(q: SelectQuery, es: seq<ExtraSelectQuery>)
    ensures var cmp := ComparisonText(q);
      |cmp| <= |ExtrasText(q, es)| && ExtrasText(q, es)[..|cmp|] == cmp
    decreases |es|
  {
    if es != [] {
      var init := ExtrasText(q, es[..|es| - 1]);
      ExtrasKeepPrefix(q, es[..|es| - 1]);
      ConcatPrefix(init, ExtraText(es[|es| - 1]));
    }
  }

  /** Appending one extra condition appends its text. */
  lemma ExtrasSnoc(q: SelectQuery, es: seq<ExtraSelectQuery>, e: ExtraSelectQuery)
    ensures ExtrasText(q, es + [e]) == ExtrasText(q, es) + ExtraText(e)
  {
    assert (es + [e])[..|es|] == es;
  }

  /** Each extra condition contributes its relation twice: once before and once inside its own text. */
  lemma ExtraConditionTwice(q: SelectQuery, es: seq<ExtraSelectQuery>, e: ExtraSelectQuery)
    ensures ExtrasText(q, es + [e]) ==
      ExtrasText(q, es) + " " + ConditionText(e.conditionType) + " " + ConditionText(e.conditionType)
        + ConditionBreak + ComparisonText(e.conditionQuery)
  {
    ExtrasSnoc(q, es, e);
    var ct := ConditionText(e.conditionType);
    Regroup(ExtrasText(q, es), " ", ct, " ", ct + ConditionBreak + ComparisonText(e.conditionQuery));
  }

  /**
   * The base comparison's data reaches the SELECT text verbatim: right after
   * `SELECT columns FROM table WHERE column operator ` comes the data
   * itself, not an escaped or quoted copy.
   */
  lemma SelectDataVerbatim(table: string, s: SelectField)
    ensures var q := s.where.query;
      var lead := "SELECT " + Join(s.columnsToSelect, ", ") + " FROM " + table + " WHERE "
        + q.column + " " + OperatorText(q.operator) + " ";
      var text := SelectText(table, s);
      |lead| + |q.data| <= |text| && text[..|lead|] == lead && text[|lead|..|lead| + |q.data|] == q.data
  {
    var q := s.where.query;
    var pre := "SELECT " + Join(s.columnsToSelect, ", ") + " FROM " + table + " WHERE ";
    var w := WhereText(s.where);
    var cmp := ComparisonText(q);
    var col := q.column;
    var op := OperatorText(q.operator);
    ExtrasKeepPrefix(q, if s.where.extraConditions.Some? then s.where.extraConditions.value else []);
    PrefixSplit(w, cmp);
    assert SelectText(table, s) == pre + w;
    VerbatimAfter(pre, col, op, q.data, w[|cmp|..]);
  }

  /** In `p + (col op d t)`, the text `p col op ` leads and `d` follows it. */
  lemma VerbatimAfter(p: string, col: string, op: string, d: string, t: string)
    ensures var lead := p + col + " " + op + " ";
      var text := p + (col + " " + op + " " + d + t);
      |lead| + |d| <= |text| && text[..|lead|] == lead && text[|lead|..|lead| + |d|] == d
  {
    var lead := p + col + " " + op + " ";
    var text := p + (col + " " + op + " " + d + t);
    assert text == lead + d + t;
  }

  /** The statements `select` hands over: one read per request, in order. */
  function SelectStatements(table: string, data: seq<SelectField>): seq<Statement> {
    if data == [] then []
    else SelectStatements(table, data[..|data| - 1]) + [Get(SelectText(table, data[|data| - 1]))]
  }

  /** The SELECT text for one request, with the WHERE built by its loop. */
  method SelectQueryText(table: string, select: SelectField) returns (query: string)
    ensures query == SelectText(table, select)
  {
    var columns := Join(select.columnsToSelect, ", ");
    var whereQuery := WhereClauseText(select.where);
    query := "SELECT " + columns + " FROM " + table + " WHERE " + whereQuery;
  }

  /** What the database answers to one read: an error message, if any, and the row(s). */
  datatype Answer = Answer(error: Option<string>, result: SelectResult)

  /** The callback data once the read for `select` is answered: every part replaced. */
  function Completed(table: string, select: SelectField, answer: Answer): (r: CallbackData)
    ensures r.error == answer.error && r.result == answer.result
    ensures r.query == SelectText(table, select) && r.data == select
  {
    CallbackData(answer.error, answer.result, SelectText(table, select), select)
  }

  lemma SelectStatementsSnoc(table: string, data: seq<SelectField>, i: nat)
    requires i < |data|
    ensures SelectStatements(table, data[..i + 1]) == SelectStatements(table, data[..i]) + [Get(SelectText(table, data[i]))]
  {
    assert data[..i + 1][..i] == data[..i];
  }

  /** The callback data a handler starts with: an empty error, a placeholder row, an empty query and request. */
  function InitialCallbackData(): CallbackData {
    CallbackData(Some(""), ManyRows([[("placeholder", Str(""))]]), "",
      SelectField([""], WhereClause(SelectQuery("", "", Eq), None)))
  }

  /**
   * The handler. `filename` is where the database lives (`None`: no
   * location was given), `callbackData` what the last finished SELECT left
   * behind, `executed` the statements handed to the database so far.
   */
  class Handler {
    var filename: Option<string>
    var callbackData: CallbackData
    var executed: seq<Statement>

    /** The location given replaces the in-memory default, even when it is absent. */
    constructor (location: Option<string>)
      ensures filename == location
      ensures callbackData == InitialCallbackData()
      ensures executed == []
    {
      filename := location;
      callbackData := InitialCallbackData();
      executed := [];
    }

    method OpenDB()
      modifies this
      ensures executed == old(executed) + [Open(filename)]
      ensures filename == old(filename) && callbackData == old(callbackData)
    {
      executed := executed + [Open(filename)];
    }

    method CloseDB()
      modifies this
      ensures executed == old(executed) + [Close]
      ensures filename == old(filename) && callbackData == old(callbackData)
    {
      executed := executed + [Close];
    }

    method CreateTable(name: string, fields: seq<TableField>)
      modifies this
      ensures executed == old(executed) + [Run(CreateTableText(name, fields), [])]
      ensures filename == old(filename) && callbackData == old(callbackData)
    {
      var columns := ColumnDefinitions(fields);
      var query := CreatePrefix + name + "(" + columns + ")";
      executed := executed + [Run(query, [])];
    }

    method InsertRows(table: string, data: RowFields, escape: Data -> string)
      modifies this
      ensures executed == old(executed) + InsertStatements(table, data.columns, data.rows, escape)
      ensures filename == old(filename) && callbackData == old(callbackData)
    {
      var i := 0;
      while i < |data.rows|
        invariant 0 <= i <= |data.rows|
        invariant executed == old(executed) + InsertStatements(table, data.columns, data.rows[..i], escape)
        invariant filename == old(filename) && callbackData == old(callbackData)
      {
        var row := data.rows[i];
        assert data.rows[..i + 1][..i] == data.rows[..i];
        if |row| > 1 {
          var escapedValues := EscapedRow(row, escape);
          var query := InsertText(table, data.columns, |row|);
          executed := executed + [Run(query, escapedValues)];
        }
        i := i + 1;
      }
      assert data.rows[..i] == data.rows;
    }

    method UpdateRows(table: string, data: seq<RowFieldUpdate>, escape: Data -> string)
      modifies this
      ensures executed == old(executed) + UpdateStatements(table, data, escape)
      ensures filename == old(filename) && callbackData == old(callbackData)
    {
      var i := 0;
      while i < |data|
        invariant 0 <= i <= |data|
        invariant executed == old(executed) + UpdateStatements(table, data[..i], escape)
        invariant filename == old(filename) && callbackData == old(callbackData)
      {
        var setQuery := SetClauseText(data[i].sets, escape);
        var where := data[i].where;
        var query := "UPDATE " + table + " " + setQuery + " WHERE " + where.column + " = " + escape(where.data);
        assert UpdateStatements(table, data[..i + 1], escape) == UpdateStatements(table, data[..i], escape) + [Run(query, [])];
        executed := executed + [Run(query, [])];
        i := i + 1;
      }
      assert data[..i] == data;
    }

    /** One read, and its answer stored in `callbackData`. */
    method ReadOne(table: string, select: SelectField, answer: Answer)
      modifies this
      ensures executed == old(executed) + [Get(SelectText(table, select))]
      ensures filename == old(filename)
      ensures callbackData == Completed(table, select, answer)
    {
      var query := SelectQueryText(table, select);
      executed := executed + [Get(query)];
      callbackData := CallbackData(answer.error, answer.result, query, select);
    }

    /**
     * One read per request; when the database answers a read, all four
     * parts of `callbackData` are overwritten with the answer, the query
     * text and the request, before the callback runs.
     */
    method Select(table: string, data: seq<SelectField>, answers: seq<Answer>)
      requires |answers| == |data|
      modifies this
      ensures executed == old(executed) + SelectStatements(table, data)
      ensures filename == old(filename)
      ensures |data| == 0 ==> callbackData == old(callbackData)
      ensures |data| > 0 ==> callbackData == Completed(table, data[|data| - 1], answers[|data| - 1])
    {
      var i := 0;
      while i < |data|
        invariant 0 <= i <= |data|
        invariant executed == old(executed) + SelectStatements(table, data[..i])
        invariant filename == old(filename)
        invariant i == 0 ==> callbackData == old(callbackData)
        invariant i > 0 ==> callbackData == Completed(table, data[i - 1], answers[i - 1])
      {
        SelectStatementsSnoc(table, data, i);
        ReadOne(table, data[i], answers[i]);
        i := i + 1;
      }
      assert data[..i] == data;
    }
  }
}

=== FILE: functions.dfy ===
/**
 * The request-payload parser: it lines an untyped request body up with an
 * ordered table schema, one entry per column, and replaces every entry it
 * refuses (write-protected column, absent key, wrong type) with the missing
 * marker `None`.
 *
 * Which string the expected type is inferred from is a parameter `arg` of
 * the general parser. The code passes the column NAME
 * (`ParseRequestDataAsWritten`); what the schema and the unit tests call for
 * is the column's declared datatype (`ParseRequestData`, used everywhere else
 * in this model). The facts about order, length, protected columns and
 * unknown keys are proved for every choice of `arg`.
 */
module Functions {
  import opened Wrappers
  import opened Strings
  import opened Js
  import opened Types

  /** The parser's result: column names and one (possibly missing) entry per column. */
  datatype ParsedRow = ParsedRow(columns: seq<string>, rows: seq<Option<JsValue>>)

  /** The columns request data may never write. */
  predicate IsProtected(column: string) {
    column == "verification_token" || column == "autokey"
  }

  /** The JavaScript type a column's declaration asks for: "string", "number", or "null" when undecided. */
  function ParseSQLiteDatatype(data: string): (r: string)
    ensures r in {"string", "number", "null"}
    ensures r == "string" <==> Contains(data, "TEXT") && !Contains(data, "INTEGER")
    ensures r == "number" <==> Contains(data, "INTEGER") && !Contains(data, "TEXT")
    ensures r == "null" <==> Contains(data, "TEXT") == Contains(data, "INTEGER")
  {
    if Contains(data, "TEXT") && !Contains(data, "INTEGER") then "string"
    else if Contains(data, "INTEGER") && !Contains(data, "TEXT") then "number"
    else "null"
  }

  /** The entry for one column, given the string its expected type is inferred from. */
  function ParseEntry(body: Body, column: string, inferFrom: string): (r: Option<JsValue>)
    ensures r.Some? ==> r.value == Get(body, column) && (r.value.Str? || r.value.Num?)
  {
    if IsProtected(column) then None
    else if ParseSQLiteDatatype(inferFrom) == TypeOf(Get(body, column)) then Some(Get(body, column))
    else None
  }

  function ColumnNames(table: seq<TableField>): (r: seq<string>)
    ensures |r| == |table|
    ensures forall k :: 0 <= k < |table| ==> r[k] == table[k].column
  {
    seq(|table|, k requires 0 <= k < |table| => table[k].column)
  }

  /** `parseRequestData` with the type inferred from `arg(field)` for each field. */
  function ParseRequestDataWith(body: Body, table: seq<TableField>, arg: TableField -> string): (r: ParsedRow)
    ensures r.columns == ColumnNames(table)
    ensures |r.rows| == |r.columns|
    ensures forall k :: 0 <= k < |table| && IsProtected(table[k].column) ==> r.rows[k] == None
    ensures forall k :: 0 <= k < |table| && !IsProtected(table[k].column) ==>
      ((r.rows[k] == Some(Get(body, table[k].column)))
        <==> (TypeOf(Get(body, table[k].column)) == ParseSQLiteDatatype(arg(table[k]))))
    ensures forall k :: 0 <= k < |table| ==>
      r.rows[k] == None || r.rows[k] == Some(Get(body, table[k].column))
  {
    var columns := ColumnNames(table);
    ParsedRow(columns, seq(|columns|, k requires 0 <= k < |columns| => ParseEntry(body, columns[k], arg(table[k]))))
  }

  /** The inference argument the code passes: the column name. */
  function NameOf(f: TableField): string {
    f.column
  }

  /** The inference argument the schema calls for: the declared datatype. */
  function DatatypeOf(f: TableField): string {
    f.dataType
  }

  /** `parseRequestData` exactly as written: the type is inferred from the column name. */
  function ParseRequestDataAsWritten(body: Body, table: seq<TableField>): ParsedRow {
    ParseRequestDataWith(body, table, NameOf)
  }

  /** `parseRequestData` with the type inferred from the column's declared datatype. */
  function ParseRequestData(body: Body, table: seq<TableField>): ParsedRow {
    ParseRequestDataWith(body, table, DatatypeOf)
  }

  /** An accepted entry is a stored value: a string or a number, never null or undefined. */
  lemma AcceptedEntriesAreData(body: Body, table: seq<TableField>, arg: TableField -> string, k: int)
    requires 0 <= k < |table|
    requires ParseRequestDataWith(body, table, arg).rows[k].Some?
    ensures IsData(ParseRequestDataWith(body, table, arg).rows[k].value)
    ensures ParseRequestDataWith(body, table, arg).rows[k].value != Null
  {
    var r := ParseRequestDataWith(body, table, arg);
    assert r.rows[k] == ParseEntry(body, table[k].column, arg(table[k]));
  }

  /**
   * Keys the table does not name never influence the result: two bodies
   * that agree on the table's column names give the same result. Key order
   * is not represented in a map at all.
   */
  lemma UnknownKeysIgnored(b1: Body, b2: Body, table: seq<TableField>, arg: TableField -> string)
    requires forall k :: 0 <= k < |table| ==> Get(b1, table[k].column) == Get(b2, table[k].column)
    ensures ParseRequestDataWith(b1, table, arg) == ParseRequestDataWith(b2, table, arg)
  {
    var r1 := ParseRequestDataWith(b1, table, arg);
    var r2 := ParseRequestDataWith(b2, table, arg);
    forall k | 0 <= k < |table|
      ensures r1.rows[k] == r2.rows[k]
    {
      assert r1.rows[k] == ParseEntry(b1, table[k].column, arg(table[k]));
      assert r2.rows[k] == ParseEntry(b2, table[k].column, arg(table[k]));
    }
  }

  /** The body restricted to the table's column names. */
  function RestrictToColumns(body: Body, table: seq<TableField>): (r: Body)
    ensures forall key :: key in r <==> key in body && key in ColumnNames(table)
  {
    map key | key in body && key in ColumnNames(table) :: body[key]
  }

  /** Dropping every key that is not a column name changes nothing. */
  lemma ExtraKeysDropped(body: Body, table: seq<TableField>, arg: TableField -> string)
    ensures ParseRequestDataWith(RestrictToColumns(body, table), table, arg) == ParseRequestDataWith(body, table, arg)
  {
    var small := RestrictToColumns(body, table);
    forall k | 0 <= k < |table|
      ensures Get(small, table[k].column) == Get(body, table[k].column)
    {
      assert table[k].column == ColumnNames(table)[k];
    }
    UnknownKeysIgnored(small, body, table, arg);
  }

  /** A column whose inference string is undecided ("null") is always missing. */
  lemma UndecidedIsMissing(body: Body, table: seq<TableField>, arg: TableField -> string, k: int)
    requires 0 <= k < |table|
    requires ParseSQLiteDatatype(arg(table[k])) == "null"
    ensures ParseRequestDataWith(body, table, arg).rows[k] == None
  {
    TypeOfIsNeverNull(Get(body, table[k].column));
  }

  /** As written: a column whose name mentions neither "TEXT" nor "INTEGER" is always missing. */
  lemma AsWrittenPlainNameIsMissing(body: Body, table: seq<TableField>, k: int)
    requires 0 <= k < |table|
    requires !Contains(table[k].column, "TEXT") && !Contains(table[k].column, "INTEGER")
    ensures ParseRequestDataAsWritten(body, table).rows[k] == None
  {
    UndecidedIsMissing(body, table, NameOf, k);
  }

  /** As written, a column with a lower-case name (no 'X', no 'G') is always missing. */
  lemma AsWrittenLowercaseIsMissing(body: Body, table: seq<TableField>, k: int)
    requires 0 <= k < |table|
    requires 'X' !in table[k].column && 'G' !in table[k].column
    ensures ParseRequestDataAsWritten(body, table).rows[k] == None
  {
    LowercaseIsUndecided(table[k].column);
    AsWrittenPlainNameIsMissing(body, table, k);
  }

  /** A TEXT column accepts a string and refuses anything else, absence included. */
  lemma TextColumnGate(body: Body, table: seq<TableField>, k: int)
    requires 0 <= k < |table| && !IsProtected(table[k].column)
    requires Contains(table[k].dataType, "TEXT") && !Contains(table[k].dataType, "INTEGER")
    ensures Get(body, table[k].column).Str? ==> ParseRequestData(body, table).rows[k] == Some(Get(body, table[k].column))
    ensures !Get(body, table[k].column).Str? ==> ParseRequestData(body, table).rows[k] == None
  {
  }

  /** An INTEGER column accepts a number and refuses anything else, absence included. */
  lemma IntegerColumnGate(body: Body, table: seq<TableField>, k: int)
    requires 0 <= k < |table| && !IsProtected(table[k].column)
    requires Contains(table[k].dataType, "INTEGER") && !Contains(table[k].dataType, "TEXT")
    ensures Get(body, table[k].column).Num? ==> ParseRequestData(body, table).rows[k] == Some(Get(body, table[k].column))
    ensures !Get(body, table[k].column).Num? ==> ParseRequestData(body, table).rows[k] == None
  {
  }

  /**
   * A declaration starting with "TEXT" and never mentioning "INTEGER" asks
   * for a string; one starting with "INTEGER" and never mentioning "TEXT"
   * asks for a number.
   */
  lemma DeclarationPrefixDecides(rest: string)
    ensures 'G' !in rest ==> ParseSQLiteDatatype("TEXT" + rest) == "string"
    ensures 'X' !in rest ==> ParseSQLiteDatatype("INTEGER" + rest) == "number"
  {
    PrefixContained("TEXT", rest);
    PrefixContained("INTEGER", rest);
    if 'G' !in rest {
      MissingCharNotContained("TEXT" + rest, "INTEGER", 'G');
    }
    if 'X' !in rest {
      MissingCharNotContained("INTEGER" + rest, "TEXT", 'X');
    }
  }

  /** Case matters: a lower-case "text" declaration is undecided. */
  lemma LowercaseIsUndecided(s: string)
    requires 'X' !in s && 'G' !in s
    ensures !Contains(s, "TEXT") && !Contains(s, "INTEGER")
    ensures ParseSQLiteDatatype(s) == "null"
  {
    MissingCharNotContained(s, "TEXT", 'X');
    MissingCharNotContained(s, "INTEGER", 'G');
  }

  // ---- A concrete case from the unit tests: a TEXT and an INTEGER column of the leads schema ----

  function SampleTable(): seq<TableField> {
    [TableField("name", "TEXT"), TableField("mailing_list", "INTEGER")]
  }

  /** Valid values for both columns, plus a key the schema does not name. */
  function SampleBody(): Body {
    map["name" := Str("Harold"), "mailing_list" := Num(1.0), "nutella" := Str("glorious")]
  }

  /** Inferring from the declared datatype carries both values through. */
  lemma SampleParsed(body: Body, table: seq<TableField>)
    requires body == SampleBody() && table == SampleTable()
    ensures ParseRequestData(body, table) == ParsedRow(["name", "mailing_list"], [Some(Str("Harold")), Some(Num(1.0))])
  {
    assert table[0].dataType == "TEXT" + "";
    assert table[1].dataType == "INTEGER" + "";
    DeclarationPrefixDecides("");
  }

  /** Inferring from the column name, as the code does, refuses both values. */
  lemma SampleParsedAsWritten(body: Body, table: seq<TableField>)
    requires body == SampleBody() && table == SampleTable()
    ensures ParseRequestDataAsWritten(body, table).rows == [None, None]
  {
    var r := ParseRequestDataAsWritten(body, table);
    LowercaseNameIsMissing(body, table, 0, "name");
    LowercaseNameIsMissing(body, table, 1, "mailing_list");
    assert |r.rows| == 2;
  }

  /** One column of the sample, by its lower-case name. */
  lemma LowercaseNameIsMissing(body: Body, table: seq<TableField>, k: int, name: string)
    requires 0 <= k < |table| && table[k].column == name
    requires name == "name" || name == "mailing_list"
    ensures ParseRequestDataAsWritten(body, table).rows[k] == None
  {
    assert 'X' !in name && 'G' !in name;
    AsWrittenLowercaseIsMissing(body, table, k);
  }
}

=== FILE: js.dfy ===
/**
 * The JavaScript values that reach the core from a decoded request body or
 * query string, with the three pieces of the language the core depends on:
 * `typeof`, truthiness, `String(v)` and property lookup on a plain object.
 */
module Js {
  import opened Strings

  /**
   * A runtime value. `Obj` stands for any non-null object, arrays included;
   * numbers are reals (NaN and the infinities are not represented).
   */
  datatype JsValue =
    | Str(s: string)
    | Num(n: real)
    | Bool(b: bool)
    | Null
    | Obj
    | Undefined

  /** The string `typeof v` evaluates to. */
  function TypeOf(v: JsValue): (r: string)
    ensures r in {"string", "number", "boolean", "object", "undefined"}
    ensures r == "string" <==> v.Str?
    ensures r == "number" <==> v.Num?
  {
    match v
    case Str(_) => "string"
    case Num(_) => "number"
    case Bool(_) => "boolean"
    case Null => "object"
    case Obj => "object"
    case Undefined => "undefined"
  }

  /** `typeof` never evaluates to "null", not even for `null`. */
  lemma TypeOfIsNeverNull(v: JsValue)
    ensures TypeOf(v) != "null"
  {
  }

  /** `Boolean(v)`: the empty string, zero, false, null and undefined are falsy. */
  predicate Truthy(v: JsValue) {
    match v
    case Str(s) => s != ""
    case Num(n) => n != 0.0
    case Bool(b) => b
    case Null => false
    case Obj => true
    case Undefined => false
  }

  /**
   * `String(v)`. How a number is printed is JavaScript's business and is
   * passed in as `numberText`; a plain object prints as "[object Object]".
   */
  function ToText(v: JsValue, numberText: real -> string): string {
    match v
    case Str(s) => s
    case Num(n) => numberText(n)
    case Bool(b) => if b then "true" else "false"
    case Null => "null"
    case Obj => "[object Object]"
    case Undefined => "undefined"
  }

  /** A decoded body or query object: its own properties by name. */
  type Body = map<string, JsValue>

  /** `body[key]`: a missing property reads as `undefined`. */
  function Get(body: Body, key: string): JsValue {
    if key in body then body[key] else Undefined
  }
}

=== FILE: outcomes.dfy ===
/**
 * What a request handler decides: the database calls it makes, in order,
 * the page it redirects the visitor to, and whether it reports an error.
 * Shared by the registration handler and the query handler.
 */
module Outcomes {
  import opened Js
  import opened Types
  import opened Functions
  import Db

  /** A call on the database handler. */
  datatype DbCall =
    | OpenDB
    | CreateTable(name: string, fields: seq<TableField>)
    /** `insertRows(table, [data])`: a list holding one parsed record. */
    | InsertList(table: string, records: seq<ParsedRow>)
    /** `insertRows(table, data)`: the parsed record itself. */
    | InsertRecord(table: string, record: ParsedRow)
    | UpdateRows(table: string, updates: seq<RowFieldUpdate>)
    | Select(table: string, selects: seq<SelectField>)
    | CloseDB

  /**
   * The database calls made, the page redirected to, and whether an error is
   * returned, when every call returns.
   */
  datatype Reply<Page> = Reply(calls: seq<DbCall>, page: Page, failed: bool)

  /**
   * How a handler's run ends: it finishes with its reply, or a TypeError is
   * thrown, after which no call is made and no page is sent; `calls` then
   * ends with the call that threw.
   */
  datatype Run<Page> = Finished(reply: Reply<Page>) | Thrown(calls: seq<DbCall>)

  /** The calls a run made. */
  function RunCalls<Page>(run: Run<Page>): seq<DbCall> {
    match run
    case Finished(r) => r.calls
    case Thrown(calls) => calls
  }

  /** Whether a call throws as written: only `insertRows` can, depending on what it is handed. */
  predicate CallThrows(c: DbCall) {
    match c
    case InsertList(_, records) => Db.InsertThrows(Db.RecordList(records))
    case InsertRecord(_, record) => Db.InsertThrows(Db.FlatRecord(record))
    case _ => false
  }

  /** The position of the first call that throws, or the number of calls when none does. */
  function FirstThrow(calls: seq<DbCall>): (i: nat)
    ensures i <= |calls|
    ensures forall j :: 0 <= j < i ==> !CallThrows(calls[j])
    ensures i < |calls| ==> CallThrows(calls[i])
  {
    if calls == [] then 0
    else if CallThrows(calls[0]) then 0
    else 1 + FirstThrow(calls[1..])
  }

  /** A reply whose call at `i` is the first to throw ends, as written, right after that call. */
  lemma ThrowsAt<Page>(r: Reply<Page>, i: nat)
    requires i < |r.calls| && CallThrows(r.calls[i])
    requires forall j :: 0 <= j < i ==> !CallThrows(r.calls[j])
    ensures AsWritten(r) == Thrown(r.calls[..i + 1])
  {
  }

  /**
   * A reply's calls made as written: the run finishes with the reply when no
   * call throws, and otherwise ends at the first call that throws, with
   * every later call and the redirect left undone.
   */
  function AsWritten<Page>(r: Reply<Page>): (run: Run<Page>)
    ensures run.Finished? <==> forall c :: c in r.calls ==> !CallThrows(c)
    ensures run.Finished? ==> run.reply == r
    ensures run.Thrown? ==>
      0 < |run.calls| <= |r.calls| && run.calls == r.calls[..|run.calls|]
      && CallThrows(run.calls[|run.calls| - 1])
      && forall j :: 0 <= j < |run.calls| - 1 ==> !CallThrows(run.calls[j])
  {
    var i := FirstThrow(r.calls);
    if i == |r.calls| then Finished(r) else Thrown(r.calls[..i + 1])
  }

  /**
   * `Object.entries(result)[i][1]`: the `i`th value of a single row, or the
   * `i`th row (an object) of a list; absent entries read as `undefined`.
   */
  function EntryValue(r: SelectResult, i: nat): JsValue {
    match r
    case NoResult => Undefined
    case OneRow(entries) => if i < |entries| then entries[i].1 else Undefined
    case ManyRows(rows) => if i < |rows| then Obj else Undefined
  }

  /** `result` in a condition: a row or a list of rows is truthy, no result is not. */
  predicate ResultTruthy(r: SelectResult) {
    !r.NoResult?
  }

  /** How many times a call occurs. */
  function Occurrences(calls: seq<DbCall>, c: DbCall): nat {
    multiset(calls)[c]
  }
}

=== FILE: querylogic.dfy ===
/**
 * The query handler, an alternative set of request handlers: storing a
 * lead, setting a fresh verification token on a lead chosen by its key,
 * and storing a membership application for a lead whose verification
 * token matches.
 *
 * As in the registration handler, the request and the tables are
 * parameters and each decision is a `Reply`. The fresh token and the row
 * the database answers with are parameters too. The membership callback
 * reads the answer from the database handler's callback data, which a
 * finished SELECT fills with the answer's result.
 *
 * A `Reply` is the handler's decision when every call returns as meant,
 * with the record parsed by `ParseRequestData` (types inferred from the
 * declared datatypes). As written, `insertRows` is handed the record flat
 * and throws on a text of two or more characters; `AsWritten` gives that
 * run.
 */
module QueryLogic {
  import opened Wrappers
  import opened Js
  import opened Types
  import opened Functions
  import opened Outcomes
  import Db
  import Registration

  /** The pages this handler redirects to. */
  datatype Page =
    | LeadgenInvalidData
    | VerificationNotice
    | VerificationSuccess
    | ApplicationSuccess
    | InvalidToken
    | MembershipInvalidData

  function Url(p: Page): string {
    match p
    case LeadgenInvalidData => "https://nodoambiental.org/leadgen/invalid_data.html"
    case VerificationNotice => "https://nodoambiental.org/leadgen/verification_notice.html"
    case VerificationSuccess => "https://nodoambiental.org/leadgen/verification_success.html"
    case ApplicationSuccess => "https://nodoambiental.org/membership/application_success.html"
    case InvalidToken => "https://nodoambiental.org/membership/invalid_token.html"
    case MembershipInvalidData => "https://nodoambiental.org/membership/invalid_data.html"
  }

  /** The two schemas this handler is given. */
  datatype Tables = Tables(leads: seq<TableField>, membership: seq<TableField>)

  /** `data.rows.indexOf(undefined) !== -1`: some entry is missing. */
  predicate AnyMissing(data: ParsedRow) {
    None in data.rows
  }

  /** A table with a protected column can never be filled from a request: its parse always has a missing entry. */
  lemma ProtectedColumnAlwaysMissing(body: Body, table: seq<TableField>, k: int)
    requires 0 <= k < |table| && IsProtected(table[k].column)
    ensures AnyMissing(ParseRequestData(body, table))
  {
    var r := ParseRequestData(body, table);
    assert r.rows[k] == None;
  }

  /**
   * `leadgenQuery`: a lead with any missing entry is refused without
   * touching the database; otherwise the database is opened, the table
   * created, the lead inserted and the database closed, in that order.
   */
  function LeadgenQuery(tables: Tables, body: Body): (r: Reply<Page>)
    ensures !r.failed
    ensures r.calls == [] <==> AnyMissing(ParseRequestData(body, tables.leads))
    ensures r.page == VerificationNotice <==> !AnyMissing(ParseRequestData(body, tables.leads))
    ensures r.page != VerificationNotice ==> r.page == LeadgenInvalidData
    ensures r.calls != [] ==>
      r.calls == [OpenDB, CreateTable("leads", tables.leads), InsertRecord("leads", ParseRequestData(body, tables.leads)), CloseDB]
  {
    var leadData := ParseRequestData(body, tables.leads);
    if None in leadData.rows then Reply([], LeadgenInvalidData, false)
    else Reply([OpenDB, CreateTable("leads", tables.leads), InsertRecord("leads", leadData), CloseDB], VerificationNotice, false)
  }

  /**
   * A stored lead holds, column by column, exactly the request's value for
   * that column, and that value is a string or a number.
   */
  lemma LeadgenQueryStoresRequestValues(tables: Tables, body: Body, k: int)
    requires LeadgenQuery(tables, body).calls != []
    requires 0 <= k < |tables.leads|
    ensures var stored := LeadgenQuery(tables, body).calls[2].record;
      stored.columns[k] == tables.leads[k].column
      && stored.rows[k] == Some(Get(body, tables.leads[k].column))
      && IsData(Get(body, tables.leads[k].column))
  {
    var data := ParseRequestData(body, tables.leads);
    assert data.rows[k] in data.rows;
    AcceptedEntriesAreData(body, tables.leads, DatatypeOf, k);
  }

  /**
   * As written, `insertRows` is handed the accepted lead flat. A lead
   * holding a value that `insertRows` cannot take as a row, such as a text
   * of two or more characters, throws at the insert with the database left
   * open and no page sent; any other lead finishes with nothing inserted.
   */
  lemma LeadgenQueryAsWritten(tables: Tables, body: Body, escape: Data -> string)
    requires !AnyMissing(ParseRequestData(body, tables.leads))
    ensures var data := ParseRequestData(body, tables.leads);
      var run := AsWritten(LeadgenQuery(tables, body));
      (run.Thrown? <==> Db.InsertThrows(Db.FlatRecord(data)))
      && (run.Thrown? ==> run.calls == [OpenDB, CreateTable("leads", tables.leads), InsertRecord("leads", data)])
      && (run.Finished? ==> Db.InsertOutcome("leads", Db.FlatRecord(data), escape) == Db.Inserted([]))
  {
    var data := ParseRequestData(body, tables.leads);
    var r := LeadgenQuery(tables, body);
    assert r.calls == [OpenDB, CreateTable("leads", tables.leads), InsertRecord("leads", data), CloseDB];
    if Db.InsertThrows(Db.FlatRecord(data)) {
      assert r.calls[..3] == [OpenDB, CreateTable("leads", tables.leads), InsertRecord("leads", data)];
      ThrowsAt(r, 2);
    }
  }

  /** As written, an accepted lead with a text entry of two or more characters, such as a name, throws at the insert. */
  lemma LeadgenQueryAsWrittenThrowsOnText(tables: Tables, body: Body, k: int)
    requires !AnyMissing(ParseRequestData(body, tables.leads))
    requires 0 <= k < |tables.leads| && Get(body, tables.leads[k].column).Str? && |Get(body, tables.leads[k].column).s| > 1
    ensures AsWritten(LeadgenQuery(tables, body))
      == Thrown([OpenDB, CreateTable("leads", tables.leads), InsertRecord("leads", ParseRequestData(body, tables.leads))])
  {
    var data := ParseRequestData(body, tables.leads);
    assert data.rows[k] in data.rows;
    assert Db.ValueThrows(data.rows[k]);
    LeadgenQueryAsWritten(tables, body, (v: Data) => "");
  }

  /** A leads schema holding `verification_token` or `autokey` makes every lead be refused. */
  lemma LeadgenQueryRefusesProtectedSchema(tables: Tables, body: Body, k: int)
    requires 0 <= k < |tables.leads| && IsProtected(tables.leads[k].column)
    ensures LeadgenQuery(tables, body) == Reply([], LeadgenInvalidData, false)
  {
    ProtectedColumnAlwaysMissing(body, tables.leads, k);
  }

  /** The update that gives the lead with the request's key a fresh verification token. */
  function TokenUpdate(autokey: Data, token: string): RowFieldUpdate {
    RowFieldUpdate([Assignment("verification_token", Str(token))], Assignment("autokey", autokey))
  }

  /**
   * `verificationQuery`: only a numeric `autokey` touches the database; the
   * lead with that key gets the fresh token.
   */
  function VerificationQuery(tables: Tables, body: Body, token: string): (r: Reply<Page>)
    ensures Get(body, "autokey").Num? <==> r.page == VerificationSuccess
    ensures !Get(body, "autokey").Num? ==> r == Reply([], LeadgenInvalidData, false)
    ensures Get(body, "autokey").Num? ==>
      (r.calls == [OpenDB, CreateTable("leads", tables.leads), UpdateRows("leads", [TokenUpdate(Get(body, "autokey"), token)]), CloseDB])
  {
    var autokey := Get(body, "autokey");
    if TypeOf(autokey) == "number" then
      Reply([OpenDB, CreateTable("leads", tables.leads), UpdateRows("leads", [TokenUpdate(autokey, token)]), CloseDB],
        VerificationSuccess, false)
    else Reply([], LeadgenInvalidData, false)
  }

  /**
   * Applied by the database, the update gives the lead whose `autokey`
   * equals the request's the fresh token and leaves every other lead as it
   * was.
   */
  lemma TokenUpdateTargetsKey(row: Row, autokey: Data, token: string, k: int)
    requires 0 <= k < |row|
    ensures var after := Registration.ApplyUpdate(row, TokenUpdate(autokey, token));
      after[k].0 == row[k].0
      && (Registration.Lookup(row, "autokey") == autokey && row[k].0 == "verification_token" ==> after[k].1 == Str(token))
      && (Registration.Lookup(row, "autokey") != autokey ==> after == row)
      && (row[k].0 != "verification_token" ==> after[k].1 == row[k].1)
  {
    var u := TokenUpdate(autokey, token);
    assert u.sets[..0] == [];
    assert Registration.AssignAll(row, u.sets) == Registration.Assign(row, u.sets[0]);
  }

  /** The lookup of the lead by the request's verification token, quoted. */
  function TokenSelect(body: Body, numberText: real -> string): SelectField {
    SelectField(["verification_token"],
      WhereClause(SelectQuery("verification_token", "\"" + ToText(Get(body, "verification_token"), numberText) + "\"", Eq), None))
  }

  /** `result` is a non-null object without a `length`: a single row. */
  predicate SingleRow(result: SelectResult) {
    result.OneRow?
  }

  /** What the SELECT callback decides from the result left in the callback data. */
  function MembershipAnswered(tables: Tables, body: Body, data: ParsedRow, result: SelectResult): Reply<Page> {
    if SingleRow(result) then
      var first := EntryValue(result, 0);
      if first.Str? && first == Get(body, "verification_token") then
        Reply([CreateTable("membership_applicants", tables.membership), InsertRecord("membership_applicants", data), CloseDB],
          ApplicationSuccess, false)
      else Reply([CloseDB], InvalidToken, false)
    else Reply([CloseDB], MembershipInvalidData, false)
  }

  /**
   * `membershipQuery`: an application with a missing entry is refused
   * before the database is opened. Otherwise the lead is looked up by the
   * request's verification token; the application is stored exactly when
   * the answer is a single row whose first value is a string equal to that
   * token (the table is created and the record inserted on that branch
   * only), and the database is closed once on every branch. A row whose
   * first value differs gets the invalid-token page, any other answer the
   * invalid-data page; no branch reports an error.
   */
  function MembershipQuery(tables: Tables, body: Body, numberText: real -> string, answer: Db.Answer): (r: Reply<Page>)
    ensures var data := ParseRequestData(body, tables.membership);
      AnyMissing(data) ==> r == Reply([], LeadgenInvalidData, false)
    ensures var data := ParseRequestData(body, tables.membership);
      !AnyMissing(data) ==>
        (|r.calls| >= 3 && r.calls[..2] == [OpenDB, Select("leads", [TokenSelect(body, numberText)])]
         && r.calls[|r.calls| - 1] == CloseDB)
    ensures r.page == ApplicationSuccess <==>
      !AnyMissing(ParseRequestData(body, tables.membership)) && answer.result.OneRow?
      && EntryValue(answer.result, 0).Str? && EntryValue(answer.result, 0) == Get(body, "verification_token")
    ensures r.page == ApplicationSuccess ==>
      r.calls == [OpenDB, Select("leads", [TokenSelect(body, numberText)]),
        CreateTable("membership_applicants", tables.membership),
        InsertRecord("membership_applicants", ParseRequestData(body, tables.membership)), CloseDB]
    ensures r.page != ApplicationSuccess ==> forall c :: c in r.calls ==> !c.CreateTable? && !c.InsertRecord?
    ensures var data := ParseRequestData(body, tables.membership);
      !AnyMissing(data) && !answer.result.OneRow? ==> r.page == MembershipInvalidData
    ensures var data := ParseRequestData(body, tables.membership);
      !AnyMissing(data) && answer.result.OneRow? && r.page != ApplicationSuccess ==> r.page == InvalidToken
    ensures var data := ParseRequestData(body, tables.membership);
      !AnyMissing(data) && r.page != ApplicationSuccess ==>
        r.calls == [OpenDB, Select("leads", [TokenSelect(body, numberText)]), CloseDB]
    ensures !r.failed
  {
    var membershipData := ParseRequestData(body, tables.membership);
    if None in membershipData.rows then Reply([], LeadgenInvalidData, false)
    else
      var after := MembershipAnswered(tables, body, membershipData, answer.result);
      Reply([OpenDB, Select("leads", [TokenSelect(body, numberText)])] + after.calls, after.page, after.failed)
  }

  /** Past the check, every branch of the callback closes the database exactly once, after opening it once. */
  lemma MembershipQueryClosesOnce(tables: Tables, body: Body, numberText: real -> string, answer: Db.Answer)
    requires !AnyMissing(ParseRequestData(body, tables.membership))
    ensures var calls := MembershipQuery(tables, body, numberText, answer).calls;
      Occurrences(calls, CloseDB) == 1 && Occurrences(calls, OpenDB) == 1
  {
    var data := ParseRequestData(body, tables.membership);
    AnsweredBalanced(tables, body, numberText, data, answer.result);
  }

  /** The lookup and whatever its callback decides open the database once and close it once. */
  lemma AnsweredBalanced(tables: Tables, body: Body, numberText: real -> string, data: ParsedRow, result: SelectResult)
    ensures var calls := [OpenDB, Select("leads", [TokenSelect(body, numberText)])] + MembershipAnswered(tables, body, data, result).calls;
      Occurrences(calls, CloseDB) == 1 && Occurrences(calls, OpenDB) == 1
  {
  }

  /**
   * As written, an application the lookup accepts is handed to `insertRows`
   * flat: the run throws exactly when the record holds a value that
   * `insertRows` cannot take as a row, and then it has opened the database,
   * ends at the insert and never closes it.
   */
  lemma MembershipQueryAsWrittenLeavesOpen(tables: Tables, body: Body, numberText: real -> string, answer: Db.Answer)
    ensures var data := ParseRequestData(body, tables.membership);
      var r := MembershipQuery(tables, body, numberText, answer);
      var run := AsWritten(r);
      (run.Thrown? <==> r.page == ApplicationSuccess && Db.InsertThrows(Db.FlatRecord(data)))
      && (run.Thrown? ==>
            (OpenDB in run.calls && CloseDB !in run.calls && run.calls[|run.calls| - 1] == InsertRecord("membership_applicants", data)))
  {
    var data := ParseRequestData(body, tables.membership);
    if !AnyMissing(data) {
      AnsweredAsWritten(tables, body, numberText, data, answer.result);
    }
  }

  /** The calls after the lookup, made as written, throw only at the insert of an accepted application. */
  lemma AnsweredAsWritten(tables: Tables, body: Body, numberText: real -> string, data: ParsedRow, result: SelectResult)
    ensures var after := MembershipAnswered(tables, body, data, result);
      var r := Reply([OpenDB, Select("leads", [TokenSelect(body, numberText)])] + after.calls, after.page, after.failed);
      var run := AsWritten(r);
      (run.Thrown? <==> r.page == ApplicationSuccess && Db.InsertThrows(Db.FlatRecord(data)))
      && (run.Thrown? ==>
            (OpenDB in run.calls && CloseDB !in run.calls && run.calls[|run.calls| - 1] == InsertRecord("membership_applicants", data)))
  {
    var after := MembershipAnswered(tables, body, data, result);
    var r := Reply([OpenDB, Select("leads", [TokenSelect(body, numberText)])] + after.calls, after.page, after.failed);
    if r.page == ApplicationSuccess && Db.InsertThrows(Db.FlatRecord(data)) {
      var stored := [OpenDB, Select("leads", [TokenSelect(body, numberText)]),
        CreateTable("membership_applicants", tables.membership), InsertRecord("membership_applicants", data)];
      assert r.calls == stored + [CloseDB];
      assert r.calls[..4] == stored;
      ThrowsAt(r, 3);
    } else {
      assert forall c :: c in r.calls ==> !CallThrows(c);
    }
  }

  /**
   * The same request run against a fresh database handler: the handler is
   * opened and the SELECT issued, and the decision is taken from the result
   * the finished SELECT leaves in the handler's callback data. It agrees with
   * `MembershipQuery` and issues exactly the open and the lookup statement.
   */
  method MembershipQueryThroughHandler(tables: Tables, body: Body, numberText: real -> string, answer: Db.Answer)
    returns (r: Reply<Page>, executed: seq<Db.Statement>)
    requires !AnyMissing(ParseRequestData(body, tables.membership))
    ensures r == MembershipQuery(tables, body, numberText, answer)
    ensures executed == [Db.Open(Some("./db/interesados.db")), Db.Get(Db.SelectText("leads", TokenSelect(body, numberText)))]
  {
    var membershipData := ParseRequestData(body, tables.membership);
    var selection := [TokenSelect(body, numberText)];
    var db := new Db.Handler(Some("./db/interesados.db"));
    db.OpenDB();
    db.Select("leads", selection, [answer]);
    var after := MembershipAnswered(tables, body, membershipData, db.callbackData.result);
    r := Reply([OpenDB, Select("leads", selection)] + after.calls, after.page, after.failed);
    executed := db.executed;
  }

  /** A membership schema holding `verification_token` or `autokey` makes every application be refused. */
  lemma MembershipQueryRefusesProtectedSchema(tables: Tables, body: Body, numberText: real -> string, answer: Db.Answer, k: int)
    requires 0 <= k < |tables.membership| && IsProtected(tables.membership[k].column)
    ensures MembershipQuery(tables, body, numberText, answer) == Reply([], LeadgenInvalidData, false)
  {
    ProtectedColumnAlwaysMissing(body, tables.membership, k);
  }
}

=== FILE: registration.dfy ===
/**
 * The registration handler: the decisions taken for the three kinds of
 * request (a new lead, a lead verifying their e-mail address, a verified
 * lead applying for membership), and the string clean-up helper.
 *
 * The handler's request, response and tables become parameters. Each
 * decision is a function from the request, the table definitions, the
 * fresh tokens and the rows the database answers with, to a `Reply`: the
 * database calls in order, the page redirected to, and whether an error is
 * returned, when every call returns as the handler means it to. What the
 * code as written does instead is a `Run`: the insert of `[record]` throws,
 * and so does the lead callback on an unknown token; those runs hand each
 * SELECT's answer to its callback, and `Unhanded` gives the run in which
 * the callback receives no argument. The record is parsed
 * by `ParseRequestData`, which infers each column's type from its declared
 * datatype. Sending e-mail is not part of the model.
 */
module Registration {
  import opened Wrappers
  import opened Strings
  import opened Js
  import opened Types
  import opened Functions
  import opened Outcomes

  /** The pages this handler redirects to. */
  datatype Page =
    | LeadgenInvalidData
    | ContactSuccess
    | AlreadyVerified
    | VerificationSuccess
    | MembershipInvalidData
    | ApplicationSuccess

  function Url(p: Page): string {
    match p
    case LeadgenInvalidData => "https://nodoambiental.org/leadgen/invalid-data.html"
    case ContactSuccess => "https://nodoambiental.org/leadgen/contact_success.html"
    case AlreadyVerified => "https://nodoambiental.org/leadgen/already-verified.html"
    case VerificationSuccess => "https://nodoambiental.org/leadgen/verification-success.html"
    case MembershipInvalidData => "https://nodoambiental.org/membership/invalid-data.html"
    case ApplicationSuccess => "https://nodoambiental.org/membership/application-success.html"
  }

  /** The table definitions the handler is given. */
  datatype Tables = Tables(leads: TableDef, membership: TableDef)

  // ---- cleanString ----

  /** `s.substring(1, s.length - 1)`: drops the first and the last character. */
  function CleanString(s: string): (r: string)
    ensures |s| >= 2 ==> r == s[1..|s| - 1] && |r| == |s| - 2
    ensures |s| < 2 ==> r == s
  {
    Substring(s, 1, |s| - 1)
  }

  /** Cleaning undoes the quoting a stored text value carries. */
  lemma CleanStringUnquotes(x: string)
    ensures CleanString("'" + x + "'") == x
  {
    var s := "'" + x + "'";
    assert s[1..|s| - 1] == x;
  }

  // ---- Array helpers ----

  /** `columns.indexOf(c)`: the first index holding `c`, or -1. */
  function IndexOfColumn(columns: seq<string>, c: string): (r: int)
    ensures -1 <= r < |columns|
    ensures r >= 0 ==> columns[r] == c && c !in columns[..r]
    ensures r == -1 <==> c !in columns
  {
    if columns == [] then -1
    else if columns[0] == c then 0
    else
      var i := IndexOfColumn(columns[1..], c);
      assert columns[1..][..(if i < 0 then 0 else i)] == columns[1..(if i < 0 then 0 else i) + 1];
      if i == -1 then -1 else i + 1
  }

  /**
   * `data.rows[data.columns.indexOf(column)] = v`: the entry of the first
   * column of that name becomes `v`; without such a column the rows are
   * left as they are.
   */
  function SetSlot(data: ParsedRow, column: string, v: JsValue): (r: ParsedRow)
    requires |data.rows| == |data.columns|
    ensures r.columns == data.columns && |r.rows| == |data.rows|
    ensures forall j :: 0 <= j < |r.rows| ==>
      r.rows[j] == (if data.columns[j] == column && column !in data.columns[..j] then Some(v) else data.rows[j])
  {
    var i := IndexOfColumn(data.columns, column);
    if i == -1 then data
    else
      var r := ParsedRow(data.columns, data.rows[i := Some(v)]);
      assert forall j :: 0 <= j < i ==> data.columns[j] in data.columns[..i];
      assert forall j :: i < j < |data.rows| ==> column == data.columns[i] && data.columns[i] in data.columns[..j];
      r
  }

  // ---- The completeness check ----

  /** `Boolean(entry)`: a missing entry is falsy. */
  predicate EntryTruthy(o: Option<JsValue>) {
    o.Some? && Truthy(o.value)
  }

  /**
   * The filter as written: its callback returns the entry itself, so an
   * entry is kept only when its column is not protected AND it is truthy.
   */
  function KeptAsWritten(columns: seq<string>, rows: seq<Option<JsValue>>, protected: seq<string>): seq<Option<JsValue>>
    requires |rows| == |columns|
  {
    if rows == [] then []
    else
      var n := |rows| - 1;
      KeptAsWritten(columns[..n], rows[..n], protected)
        + (if columns[n] !in protected && EntryTruthy(rows[n]) then [rows[n]] else [])
  }

  /** The filter the check means: every entry of an unprotected column is kept. */
  function KeptUnprotected(columns: seq<string>, rows: seq<Option<JsValue>>, protected: seq<string>): seq<Option<JsValue>>
    requires |rows| == |columns|
  {
    if rows == [] then []
    else
      var n := |rows| - 1;
      KeptUnprotected(columns[..n], rows[..n], protected)
        + (if columns[n] !in protected then [rows[n]] else [])
  }

  /** Every column outside the protected list has an entry. */
  predicate Complete(columns: seq<string>, rows: seq<Option<JsValue>>, protected: seq<string>)
    requires |rows| == |columns|
  {
    forall k :: 0 <= k < |rows| && columns[k] !in protected ==> rows[k].Some?
  }

  /** As written, the filtered list never holds a missing entry, so the rejection cannot happen. */
  lemma {:induction false} AsWrittenNeverRejects(columns: seq<string>, rows: seq<Option<JsValue>>, protected: seq<string>)
    requires |rows| == |columns|
    ensures None !in KeptAsWritten(columns, rows, protected)
    decreases |rows|
  {
    if rows != [] {
      var n := |rows| - 1;
      AsWrittenNeverRejects(columns[..n], rows[..n], protected);
    }
  }

  /** A lead without a name: incomplete, and yet the written filter lets it through. */
  lemma AsWrittenMissesMissingName()
    ensures !Complete(["name"], [None], [])
    ensures None !in KeptAsWritten(["name"], [None], [])
  {
    AsWrittenNeverRejects(["name"], [None], []);
  }

  /** Keeping every unprotected entry detects exactly the incomplete records. */
  lemma {:induction false} KeptUnprotectedDetectsMissing(columns: seq<string>, rows: seq<Option<JsValue>>, protected: seq<string>)
    requires |rows| == |columns|
    ensures None in KeptUnprotected(columns, rows, protected) <==> !Complete(columns, rows, protected)
    decreases |rows|
  {
    if rows != [] {
      var n := |rows| - 1;
      KeptUnprotectedDetectsMissing(columns[..n], rows[..n], protected);
      assert Complete(columns, rows, protected) <==>
        Complete(columns[..n], rows[..n], protected) && (columns[n] in protected || rows[n].Some?);
    }
  }

  // ---- leadgen ----

  /** The parsed lead with the fresh verification token put in its slot. */
  function LeadData(tables: Tables, body: Body, token: string): (r: ParsedRow)
    ensures |r.rows| == |r.columns| == |tables.leads.fields|
  {
    SetSlot(ParseRequestData(body, tables.leads.fields), "verification_token", Str(token))
  }

  /** The calls for a lead that passes the check. */
  function LeadgenCalls(tables: Tables, data: ParsedRow): seq<DbCall> {
    [OpenDB, CreateTable("leads", tables.leads.fields), InsertList("leads", [data]), CloseDB]
  }

  /**
   * `leadgen`'s decision with the filter exactly as written, which keeps
   * truthy unprotected entries only (the record is parsed as in the rest of
   * the model).
   */
  function LeadgenAsWritten(tables: Tables, body: Body, token: string): (r: Reply<Page>)
    ensures r == Reply(LeadgenCalls(tables, LeadData(tables, body, token)), ContactSuccess, false)
  {
    var data := LeadData(tables, body, token);
    AsWrittenNeverRejects(data.columns, data.rows, tables.leads.protected);
    if None in KeptAsWritten(data.columns, data.rows, tables.leads.protected) then Reply([], LeadgenInvalidData, true)
    else Reply(LeadgenCalls(tables, data), ContactSuccess, false)
  }

  /**
   * As written, every lead, however incomplete, reaches the insert, and the
   * insert of `[leadData]` throws: nothing is stored, the database is never
   * closed and no page is sent.
   */
  lemma LeadgenAsWrittenThrows(tables: Tables, body: Body, token: string)
    ensures AsWritten(LeadgenAsWritten(tables, body, token))
      == Thrown([OpenDB, CreateTable("leads", tables.leads.fields), InsertList("leads", [LeadData(tables, body, token)])])
  {
    var data := LeadData(tables, body, token);
    AsWrittenNeverRejects(data.columns, data.rows, tables.leads.protected);
    ThrowsAt(LeadgenAsWritten(tables, body, token), 2);
  }

  /**
   * `leadgen` with the check it means: a lead missing an unprotected entry
   * is refused without touching the database; any other lead is stored with
   * its fresh token, then the visitor is sent to the success page.
   */
  function Leadgen(tables: Tables, body: Body, token: string): (r: Reply<Page>)
    ensures var data := LeadData(tables, body, token);
      r.failed <==> !Complete(data.columns, data.rows, tables.leads.protected)
    ensures r.failed ==> r == Reply([], LeadgenInvalidData, true)
    ensures !r.failed ==> r == Reply(LeadgenCalls(tables, LeadData(tables, body, token)), ContactSuccess, false)
  {
    var data := LeadData(tables, body, token);
    KeptUnprotectedDetectsMissing(data.columns, data.rows, tables.leads.protected);
    if None in KeptUnprotected(data.columns, data.rows, tables.leads.protected) then Reply([], LeadgenInvalidData, true)
    else Reply(LeadgenCalls(tables, data), ContactSuccess, false)
  }

  /** The stored lead carries the fresh token in its `verification_token` slot; every other entry is as parsed. */
  lemma LeadgenStoresToken(tables: Tables, body: Body, token: string, k: int)
    requires 0 <= k < |tables.leads.fields|
    ensures var data := LeadData(tables, body, token);
      var parsed := ParseRequestData(body, tables.leads.fields);
      var first := tables.leads.fields[k].column == "verification_token" && "verification_token" !in parsed.columns[..k];
      (first ==> data.rows[k] == Some(Str(token))) && (!first ==> data.rows[k] == parsed.rows[k])
  {
  }

  /** An unprotected column whose key the body lacks makes the lead fail the check. */
  lemma LeadgenRefusesMissingKey(tables: Tables, body: Body, token: string, k: int)
    requires 0 <= k < |tables.leads.fields|
    requires tables.leads.fields[k].column !in tables.leads.protected
    requires tables.leads.fields[k].column != "verification_token"
    requires tables.leads.fields[k].column !in body
    ensures Leadgen(tables, body, token) == Reply([], LeadgenInvalidData, true)
  {
    var parsed := ParseRequestData(body, tables.leads.fields);
    var column := tables.leads.fields[k].column;
    assert TypeOf(Get(body, column)) == "undefined";
    assert parsed.rows[k] == None;
    var data := LeadData(tables, body, token);
    assert data.rows[k] == None;
  }

  // ---- verification ----

  /** A token of the right shape: a string of exactly 32 characters. */
  predicate WellShapedToken(v: JsValue) {
    v != Null && v.Str? && |v.s| == 32
  }

  /** The lead looked up by its verification token, quoted. */
  function VerificationSelect(token: string): SelectField {
    SelectField(["verification_token", "email", "name", "organization", "role", "message"],
      WhereClause(SelectQuery("verification_token", "'" + token + "'", Eq), None))
  }

  /** The update that spends a verification token and hands out a user token. */
  function VerificationUpdate(queried: string, userToken: string): RowFieldUpdate {
    RowFieldUpdate([Assignment("user_token", Str(userToken)), Assignment("verification_token", Str("ALREADY_VERIFIED"))],
      Assignment("verification_token", Str(queried)))
  }

  /** What happens once the lookup for a well-shaped token is answered. */
  function VerificationAnswered(tables: Tables, queried: string, answer: SelectResult, userToken: string): Reply<Page> {
    var asked := [OpenDB, Select("leads", [VerificationSelect(queried)])];
    if ResultTruthy(answer) then
      var stored := EntryValue(answer, 0);
      if stored != Str("ALREADY_VERIFIED") then
        if stored == Str(queried) then
          Reply(asked + [OpenDB, CreateTable("leads", tables.leads.fields),
            UpdateRows("leads", [VerificationUpdate(queried, userToken)]), CloseDB], VerificationSuccess, false)
        else Reply(asked, LeadgenInvalidData, true)
      else Reply(asked, AlreadyVerified, true)
    else Reply(asked, AlreadyVerified, true)
  }

  /**
   * `verification`: a token that is absent or not a 32-character string is
   * refused without touching the database. Otherwise the lead is looked up
   * and the verification succeeds exactly when the stored token equals the
   * one given; only then is the token spent, and only then is the database
   * closed. No answer, or a spent token, gives the already-verified page;
   * any other stored token the invalid-data page, after the open and the
   * lookup and nothing else.
   */
  function Verification(tables: Tables, query: Body, answer: SelectResult, userToken: string): (r: Reply<Page>)
    ensures !WellShapedToken(Get(query, "token")) ==> r == Reply([], LeadgenInvalidData, true)
    ensures WellShapedToken(Get(query, "token")) ==>
      |r.calls| >= 2 && r.calls[..2] == [OpenDB, Select("leads", [VerificationSelect(Get(query, "token").s)])]
    ensures r.page == VerificationSuccess <==>
      WellShapedToken(Get(query, "token")) && EntryValue(answer, 0) == Get(query, "token")
    ensures r.page == VerificationSuccess ==> (r.calls[2..] ==
      [OpenDB, CreateTable("leads", tables.leads.fields), UpdateRows("leads", [VerificationUpdate(Get(query, "token").s, userToken)]), CloseDB])
    ensures !r.failed <==> r.page == VerificationSuccess
    ensures CloseDB in r.calls <==> r.page == VerificationSuccess
    ensures WellShapedToken(Get(query, "token")) && r.page != VerificationSuccess ==>
      (r.page == AlreadyVerified <==> !ResultTruthy(answer) || EntryValue(answer, 0) == Str("ALREADY_VERIFIED"))
    ensures r.page == VerificationSuccess || r.page == AlreadyVerified || r.page == LeadgenInvalidData
    ensures WellShapedToken(Get(query, "token")) && r.page != VerificationSuccess ==>
      r.calls == [OpenDB, Select("leads", [VerificationSelect(Get(query, "token").s)])]
  {
    var token := Get(query, "token");
    if Truthy(token) then
      if token != Null && token.Str? && |token.s| == 32 then
        assert token.s != "ALREADY_VERIFIED";
        VerificationAnswered(tables, token.s, answer, userToken)
      else Reply([], LeadgenInvalidData, true)
    else Reply([], LeadgenInvalidData, true)
  }

  /** The value a row holds for a column: its first entry of that name, or `undefined`. */
  function Lookup(row: Row, column: string): JsValue {
    if row == [] then Undefined
    else if row[0].0 == column then row[0].1
    else Lookup(row[1..], column)
  }

  /** One assignment applied to a stored row: every entry of that column takes the value. */
  function Assign(row: Row, a: Assignment): (r: Row)
    ensures |r| == |row|
    ensures forall k :: 0 <= k < |row| ==> r[k].0 == row[k].0
    ensures forall k :: 0 <= k < |row| ==> r[k].1 == (if row[k].0 == a.column then a.data else row[k].1)
  {
    seq(|row|, k requires 0 <= k < |row| => if row[k].0 == a.column then (row[k].0, a.data) else row[k])
  }

  function AssignAll(row: Row, sets: seq<Assignment>): (r: Row)
    ensures |r| == |row|
  {
    if sets == [] then row else Assign(AssignAll(row, sets[..|sets| - 1]), sets[|sets| - 1])
  }

  /** The database applying an UPDATE to one stored row: the assignments happen when the `where` equality holds. */
  function ApplyUpdate(row: Row, u: RowFieldUpdate): (r: Row)
    ensures |r| == |row|
  {
    if Lookup(row, u.where.column) == u.where.data then AssignAll(row, u.sets) else row
  }

  /** After the update, the row's verification token is no longer the one that was spent. */
  lemma SpentTokenIsGone(row: Row, queried: string, userToken: string)
    requires |queried| == 32
    requires |row| > 0 && row[0].0 == "verification_token"
    ensures ApplyUpdate(row, VerificationUpdate(queried, userToken))[0].1 != Str(queried)
  {
    var u := VerificationUpdate(queried, userToken);
    if Lookup(row, "verification_token") == Str(queried) {
      var first := u.sets[..1];
      assert first[..0] == [] && first[0] == u.sets[0];
      assert AssignAll(row, first[..0]) == row;
      var once := AssignAll(row, first);
      assert once == Assign(row, u.sets[0]);
      assert once[0].0 == "verification_token";
      assert AssignAll(row, u.sets) == Assign(once, u.sets[1]);
      assert AssignAll(row, u.sets)[0].1 == Str("ALREADY_VERIFIED");
      assert "ALREADY_VERIFIED" != queried by { assert |"ALREADY_VERIFIED"| == 16; }
    }
  }

  /**
   * A token cannot verify twice: once the stored lead has gone through the
   * update, looking it up again with the same token never succeeds.
   */
  lemma SecondVerificationFails(tables: Tables, query: Body, row: Row, userToken: string, laterUserToken: string)
    requires WellShapedToken(Get(query, "token"))
    requires |row| > 0 && row[0].0 == "verification_token"
    ensures var spent := ApplyUpdate(row, VerificationUpdate(Get(query, "token").s, userToken));
      Verification(tables, query, OneRow(spent), laterUserToken).page != VerificationSuccess
  {
    SpentTokenIsGone(row, Get(query, "token").s, userToken);
  }

  // ---- membership ----

  /** `"` + String(body.user_token) + `"`: the user token as the WHERE data. */
  function QuotedUserToken(body: Body, numberText: real -> string): string {
    "\"" + ToText(Get(body, "user_token"), numberText) + "\""
  }

  function LeadsSelect(body: Body, numberText: real -> string): SelectField {
    SelectField(["user_token", "name", "email"],
      WhereClause(SelectQuery("user_token", QuotedUserToken(body, numberText), Eq), None))
  }

  function ApplicantsSelect(body: Body, numberText: real -> string): SelectField {
    SelectField(["user_token"],
      WhereClause(SelectQuery("user_token", QuotedUserToken(body, numberText), Eq), None))
  }

  /** The lead found for the request: a 32-character token equal to the request's, and a string name and e-mail. */
  predicate LeadMatches(body: Body, leads: SelectResult) {
    var queried := EntryValue(leads, 0);
    queried != Null && queried.Str? && EntryValue(leads, 1).Str? && EntryValue(leads, 2).Str?
      && |queried.s| == 32 && queried == Get(body, "user_token")
  }

  /** The parsed application; the completeness check uses the LEADS table's protected list. */
  function MembershipData(tables: Tables, body: Body): (r: ParsedRow)
    ensures |r.rows| == |r.columns| == |tables.membership.fields|
  {
    ParseRequestData(body, tables.membership.fields)
  }

  /**
   * What follows the completeness check, with every call returning: the
   * lead is looked up, and the application is stored, with the lead's token
   * in its `user_token` slot, only when the lead matches and no applicant
   * with that token exists yet.
   */
  function MembershipLookup(tables: Tables, body: Body, numberText: real -> string, data: ParsedRow, leads: SelectResult, applicants: SelectResult): Reply<Page>
    requires |data.rows| == |data.columns|
  {
    var looked := [OpenDB, Select("leads", [LeadsSelect(body, numberText)])];
    if LeadMatches(body, leads) then
      var queried := EntryValue(leads, 0);
      var both := looked + [Select("membership_applicants", [ApplicantsSelect(body, numberText)])];
      var application := SetSlot(data, "user_token", queried);
      if applicants.NoResult? then
        Reply(both + [CreateTable("membership_applicants", tables.membership.fields),
          InsertList("membership_applicants", [application]), CloseDB], ApplicationSuccess, false)
      else Reply(both + [CloseDB], MembershipInvalidData, true)
    else Reply(looked + [CloseDB], MembershipInvalidData, true)
  }

  /**
   * `membership` as meant: an incomplete application is refused before the
   * database is opened; a lead lookup without a match, an unknown token
   * included, closes the database and sends the invalid-data page; and an
   * application is stored only when the lead matches and no applicant with
   * that token exists yet.
   */
  function Membership(tables: Tables, body: Body, numberText: real -> string, leads: SelectResult, applicants: SelectResult): (r: Reply<Page>)
    ensures var data := MembershipData(tables, body);
      !Complete(data.columns, data.rows, tables.leads.protected) ==> r == Reply([], MembershipInvalidData, true)
    ensures r.page == ApplicationSuccess <==>
      var data := MembershipData(tables, body);
      Complete(data.columns, data.rows, tables.leads.protected) && LeadMatches(body, leads) && applicants.NoResult?
    ensures r.page != ApplicationSuccess ==> r.page == MembershipInvalidData && r.failed
    ensures r.page != ApplicationSuccess ==> forall c :: c in r.calls ==> !c.CreateTable? && !c.InsertList?
    ensures var data := MembershipData(tables, body);
      Complete(data.columns, data.rows, tables.leads.protected) && LeadMatches(body, leads) && !applicants.NoResult? ==>
        r.calls == [OpenDB, Select("leads", [LeadsSelect(body, numberText)]),
          Select("membership_applicants", [ApplicantsSelect(body, numberText)]), CloseDB]
  {
    var data := MembershipData(tables, body);
    KeptUnprotectedDetectsMissing(data.columns, data.rows, tables.leads.protected);
    if None in KeptUnprotected(data.columns, data.rows, tables.leads.protected) then
      Reply([], MembershipInvalidData, true)
    else MembershipLookup(tables, body, numberText, data, leads, applicants)
  }

  /** A lookup that finds no lead closes the database and sends the invalid-data page. */
  lemma MembershipUnknownTokenRefused(tables: Tables, body: Body, numberText: real -> string, applicants: SelectResult)
    requires var data := MembershipData(tables, body);
      Complete(data.columns, data.rows, tables.leads.protected)
    ensures Membership(tables, body, numberText, NoResult, applicants)
      == Reply([OpenDB, Select("leads", [LeadsSelect(body, numberText)]), CloseDB], MembershipInvalidData, true)
  {
    var data := MembershipData(tables, body);
    KeptUnprotectedDetectsMissing(data.columns, data.rows, tables.leads.protected);
  }

  /** An application that is stored (see `Membership`): both lookups, then the table, the insert and the closing of the database. */
  lemma MembershipStores(tables: Tables, body: Body, numberText: real -> string, leads: SelectResult, applicants: SelectResult)
    requires var data := MembershipData(tables, body);
      Complete(data.columns, data.rows, tables.leads.protected) && LeadMatches(body, leads) && applicants.NoResult?
    ensures Membership(tables, body, numberText, leads, applicants).calls == [OpenDB, Select("leads", [LeadsSelect(body, numberText)]),
      Select("membership_applicants", [ApplicantsSelect(body, numberText)]),
      CreateTable("membership_applicants", tables.membership.fields),
      InsertList("membership_applicants", [SetSlot(MembershipData(tables, body), "user_token", EntryValue(leads, 0))]), CloseDB]
  {
    var data := MembershipData(tables, body);
    KeptUnprotectedDetectsMissing(data.columns, data.rows, tables.leads.protected);
    LookupStores(tables, body, numberText, data, leads, applicants);
  }

  /** The calls of a lookup whose lead matches and whose token no applicant has. */
  lemma LookupStores(tables: Tables, body: Body, numberText: real -> string, data: ParsedRow, leads: SelectResult, applicants: SelectResult)
    requires |data.rows| == |data.columns|
    requires LeadMatches(body, leads) && applicants.NoResult?
    ensures MembershipLookup(tables, body, numberText, data, leads, applicants).calls == [OpenDB, Select("leads", [LeadsSelect(body, numberText)]),
      Select("membership_applicants", [ApplicantsSelect(body, numberText)]),
      CreateTable("membership_applicants", tables.membership.fields),
      InsertList("membership_applicants", [SetSlot(data, "user_token", EntryValue(leads, 0))]), CloseDB]
  {
  }

  /** The database is closed exactly as often as it is opened, at most once. */
  lemma MembershipClosesWhatItOpens(tables: Tables, body: Body, numberText: real -> string, leads: SelectResult, applicants: SelectResult)
    ensures var calls := Membership(tables, body, numberText, leads, applicants).calls;
      Occurrences(calls, CloseDB) == Occurrences(calls, OpenDB) <= 1
  {
    var data := MembershipData(tables, body);
    if None !in KeptUnprotected(data.columns, data.rows, tables.leads.protected) {
      LookupBalanced(tables, body, numberText, data, leads, applicants);
    }
  }

  /** After the check, the database is opened once and closed once. */
  lemma LookupBalanced(tables: Tables, body: Body, numberText: real -> string, data: ParsedRow, leads: SelectResult, applicants: SelectResult)
    requires |data.rows| == |data.columns|
    ensures var calls := MembershipLookup(tables, body, numberText, data, leads, applicants).calls;
      Occurrences(calls, CloseDB) == 1 && Occurrences(calls, OpenDB) == 1
  {
  }

  /** A stored application carries the request's own user token in its `user_token` slot. */
  lemma ApplicationCarriesUserToken(tables: Tables, body: Body, numberText: real -> string, leads: SelectResult, applicants: SelectResult, k: int)
    requires var data := MembershipData(tables, body);
      Complete(data.columns, data.rows, tables.leads.protected) && LeadMatches(body, leads) && applicants.NoResult?
    requires 0 <= k < |tables.membership.fields|
    requires tables.membership.fields[k].column == "user_token"
    requires "user_token" !in ColumnNames(tables.membership.fields)[..k]
    ensures var r := Membership(tables, body, numberText, leads, applicants);
      |r.calls| > 4 && r.calls[4].InsertList? && |r.calls[4].records| == 1
      && k < |r.calls[4].records[0].rows| && r.calls[4].records[0].rows[k] == Some(Get(body, "user_token"))
  {
    MembershipStores(tables, body, numberText, leads, applicants);
  }

  // ---- membership as written ----

  /**
   * `Object.entries(result)[i][1]` for the first three entries: `undefined`
   * has no entries, and a missing entry has no `[1]`.
   */
  predicate EntriesReadable(result: SelectResult) {
    match result
    case NoResult => false
    case OneRow(entries) => |entries| >= 3
    case ManyRows(rows) => |rows| >= 3
  }

  /**
   * `membership` as written: the truthy-only filter of the completeness
   * check, the lead callback reading three entries of the answer before
   * anything else, and the calls made as written. No run finishes on the
   * success page.
   */
  function MembershipAsWritten(tables: Tables, body: Body, numberText: real -> string, leads: SelectResult, applicants: SelectResult): (run: Run<Page>)
    ensures run.Finished? ==> run.reply.page == MembershipInvalidData && run.reply.failed
  {
    var data := MembershipData(tables, body);
    if None in KeptAsWritten(data.columns, data.rows, tables.leads.protected) then
      Finished(Reply([], MembershipInvalidData, true))
    else if !EntriesReadable(leads) then
      Thrown([OpenDB, Select("leads", [LeadsSelect(body, numberText)])])
    else
      LookupNeverSucceeds(tables, body, numberText, data, leads, applicants);
      AsWritten(MembershipLookup(tables, body, numberText, data, leads, applicants))
  }

  /** The calls after the check, made as written, never finish on the success page: that branch throws at its insert. */
  lemma LookupNeverSucceeds(tables: Tables, body: Body, numberText: real -> string, data: ParsedRow, leads: SelectResult, applicants: SelectResult)
    requires |data.rows| == |data.columns|
    ensures var run := AsWritten(MembershipLookup(tables, body, numberText, data, leads, applicants));
      run.Finished? ==> run.reply.page == MembershipInvalidData && run.reply.failed
  {
    if LeadMatches(body, leads) && applicants.NoResult? {
      LookupStoredThrows(tables, body, numberText, data, leads, applicants);
    }
  }

  /** As written, no application is refused before the database is opened and the lead looked up, however incomplete. */
  lemma MembershipAsWrittenNeverRefuses(tables: Tables, body: Body, numberText: real -> string, leads: SelectResult, applicants: SelectResult)
    ensures var calls := RunCalls(MembershipAsWritten(tables, body, numberText, leads, applicants));
      |calls| >= 2 && calls[..2] == [OpenDB, Select("leads", [LeadsSelect(body, numberText)])]
  {
    var data := MembershipData(tables, body);
    AsWrittenNeverRejects(data.columns, data.rows, tables.leads.protected);
    if EntriesReadable(leads) {
      LookupStartsWithLead(tables, body, numberText, data, leads, applicants);
    }
  }

  /** The calls after the check, made as written, begin with the open and the lead lookup, neither of which throws. */
  lemma LookupStartsWithLead(tables: Tables, body: Body, numberText: real -> string, data: ParsedRow, leads: SelectResult, applicants: SelectResult)
    requires |data.rows| == |data.columns|
    ensures var calls := RunCalls(AsWritten(MembershipLookup(tables, body, numberText, data, leads, applicants)));
      |calls| >= 2 && calls[..2] == [OpenDB, Select("leads", [LeadsSelect(body, numberText)])]
  {
    var r := MembershipLookup(tables, body, numberText, data, leads, applicants);
    assert r.calls[..2] == [OpenDB, Select("leads", [LeadsSelect(body, numberText)])];
    var run := AsWritten(r);
    if run.Thrown? {
      assert !CallThrows(r.calls[0]) && !CallThrows(r.calls[1]);
      assert |run.calls| > 2;
      assert run.calls[..2] == r.calls[..2];
    }
  }

  /** As written, a lookup that finds no lead throws in the callback, with the database left open and no page sent. */
  lemma MembershipAsWrittenUnknownTokenThrows(tables: Tables, body: Body, numberText: real -> string, applicants: SelectResult)
    ensures MembershipAsWritten(tables, body, numberText, NoResult, applicants)
      == Thrown([OpenDB, Select("leads", [LeadsSelect(body, numberText)])])
  {
    var data := MembershipData(tables, body);
    AsWrittenNeverRejects(data.columns, data.rows, tables.leads.protected);
  }

  /**
   * As written, an application that would be stored throws at the insert of
   * `[membershipData]`: nothing is stored, the database is never closed and
   * no page is sent.
   */
  lemma MembershipAsWrittenStoredThrows(tables: Tables, body: Body, numberText: real -> string, leads: SelectResult, applicants: SelectResult)
    requires LeadMatches(body, leads) && applicants.NoResult?
    ensures MembershipAsWritten(tables, body, numberText, leads, applicants) == Thrown([OpenDB, Select("leads", [LeadsSelect(body, numberText)]),
      Select("membership_applicants", [ApplicantsSelect(body, numberText)]),
      CreateTable("membership_applicants", tables.membership.fields),
      InsertList("membership_applicants", [SetSlot(MembershipData(tables, body), "user_token", EntryValue(leads, 0))])])
  {
    var data := MembershipData(tables, body);
    AsWrittenNeverRejects(data.columns, data.rows, tables.leads.protected);
    LookupStoredThrows(tables, body, numberText, data, leads, applicants);
  }

  /** The calls of a stored application, made as written, end at the insert. */
  lemma LookupStoredThrows(tables: Tables, body: Body, numberText: real -> string, data: ParsedRow, leads: SelectResult, applicants: SelectResult)
    requires |data.rows| == |data.columns|
    requires LeadMatches(body, leads) && applicants.NoResult?
    ensures AsWritten(MembershipLookup(tables, body, numberText, data, leads, applicants)) == Thrown([OpenDB, Select("leads", [LeadsSelect(body, numberText)]),
      Select("membership_applicants", [ApplicantsSelect(body, numberText)]),
      CreateTable("membership_applicants", tables.membership.fields),
      InsertList("membership_applicants", [SetSlot(data, "user_token", EntryValue(leads, 0))])])
  {
    var r := MembershipLookup(tables, body, numberText, data, leads, applicants);
    var insert := InsertList("membership_applicants", [SetSlot(data, "user_token", EntryValue(leads, 0))]);
    var stored := [OpenDB, Select("leads", [LeadsSelect(body, numberText)]),
      Select("membership_applicants", [ApplicantsSelect(body, numberText)]),
      CreateTable("membership_applicants", tables.membership.fields), insert];
    assert r.calls == stored + [CloseDB];
    assert r.calls[..5] == stored;
    assert CallThrows(insert);
    ThrowsAt(r, 4);
  }

  /** As written, a run that throws has opened the database and never closes it. */
  lemma MembershipAsWrittenLeavesOpen(tables: Tables, body: Body, numberText: real -> string, leads: SelectResult, applicants: SelectResult)
    ensures var run := MembershipAsWritten(tables, body, numberText, leads, applicants);
      run.Thrown? ==> OpenDB in run.calls && CloseDB !in run.calls
  {
    var data := MembershipData(tables, body);
    AsWrittenNeverRejects(data.columns, data.rows, tables.leads.protected);
    if EntriesReadable(leads) {
      LookupLeavesOpen(tables, body, numberText, data, leads, applicants);
    }
  }

  /** The calls after the check, made as written, throw only at the insert of a stored application. */
  lemma LookupLeavesOpen(tables: Tables, body: Body, numberText: real -> string, data: ParsedRow, leads: SelectResult, applicants: SelectResult)
    requires |data.rows| == |data.columns|
    ensures var run := AsWritten(MembershipLookup(tables, body, numberText, data, leads, applicants));
      run.Thrown? ==> OpenDB in run.calls && CloseDB !in run.calls
  {
    if LeadMatches(body, leads) && applicants.NoResult? {
      LookupStoredThrows(tables, body, numberText, data, leads, applicants);
    } else {
      var r := MembershipLookup(tables, body, numberText, data, leads, applicants);
      assert forall c :: c in r.calls ==> !CallThrows(c);
    }
  }
  // ---- the callback's argument, as written ----

  /** The position of the first SELECT among the calls, or their number when there is none. */
  function FirstSelect(calls: seq<DbCall>): (i: nat)
    ensures i <= |calls|
    ensures forall j :: 0 <= j < i ==> !calls[j].Select?
    ensures i < |calls| ==> calls[i].Select?
  {
    if calls == [] then 0
    else if calls[0].Select? then 0
    else 1 + FirstSelect(calls[1..])
  }

  /**
   * A run as the code is written all the way down: `select` calls its
   * callback with no argument, and every callback of this handler reads
   * `result` from that argument, so the run throws in the callback of its
   * first SELECT; a run without a SELECT is unchanged.
   */
  function Unhanded(run: Run<Page>): (u: Run<Page>)
    ensures (forall c :: c in RunCalls(run) ==> !c.Select?) ==> u == run
    ensures (exists j :: 0 <= j < |RunCalls(run)| && RunCalls(run)[j].Select?) ==>
      u.Thrown? && 0 < |u.calls| <= |RunCalls(run)| && u.calls == RunCalls(run)[..|u.calls|]
      && u.calls[|u.calls| - 1].Select? && forall j :: 0 <= j < |u.calls| - 1 ==> !u.calls[j].Select?
  {
    var calls := RunCalls(run);
    var i := FirstSelect(calls);
    if i == |calls| then run else Thrown(calls[..i + 1])
  }

  /** A run whose call at `i` is its first SELECT throws, as written, right after that call. */
  lemma UnhandedAt(run: Run<Page>, i: nat)
    requires i < |RunCalls(run)| && RunCalls(run)[i].Select?
    requires forall j :: 0 <= j < i ==> !RunCalls(run)[j].Select?
    ensures Unhanded(run) == Thrown(RunCalls(run)[..i + 1])
  {
  }

  /** As written, the lead carries no SELECT, so the insert's throw is how it ends. */
  lemma LeadgenUnhanded(tables: Tables, body: Body, token: string)
    ensures Unhanded(AsWritten(LeadgenAsWritten(tables, body, token)))
      == Thrown([OpenDB, CreateTable("leads", tables.leads.fields), InsertList("leads", [LeadData(tables, body, token)])])
  {
    LeadgenAsWrittenThrows(tables, body, token);
  }

  /**
   * As written, a well-shaped token never verifies: the lookup's callback
   * throws on its missing argument, after the open and the lookup, with the
   * database left open and no page sent. Any other token is refused as
   * before, without a database call.
   */
  lemma VerificationUnhanded(tables: Tables, query: Body, answer: SelectResult, userToken: string)
    ensures var run := Unhanded(AsWritten(Verification(tables, query, answer, userToken)));
      (WellShapedToken(Get(query, "token")) ==>
        run == Thrown([OpenDB, Select("leads", [VerificationSelect(Get(query, "token").s)])]))
      && (!WellShapedToken(Get(query, "token")) ==> run == Finished(Reply([], LeadgenInvalidData, true)))
  {
    var r := Verification(tables, query, answer, userToken);
    assert forall c :: c in r.calls ==> !CallThrows(c);
    if WellShapedToken(Get(query, "token")) {
      UnhandedAt(AsWritten(r), 1);
    }
  }

  /**
   * As written, every application throws in the lead callback on its
   * missing argument, right after the open and the lookup: the applicants
   * are never looked up and nothing is inserted.
   */
  lemma MembershipUnhanded(tables: Tables, body: Body, numberText: real -> string, leads: SelectResult, applicants: SelectResult)
    ensures Unhanded(MembershipAsWritten(tables, body, numberText, leads, applicants))
      == Thrown([OpenDB, Select("leads", [LeadsSelect(body, numberText)])])
  {
    MembershipAsWrittenNeverRefuses(tables, body, numberText, leads, applicants);
    UnhandedAt(MembershipAsWritten(tables, body, numberText, leads, applicants), 1);
  }
}

=== FILE: routes.dfy ===
/**
 * The contact-form route: it renders the posted fields as a YAML front
 * matter document and names the directory and file the document is written
 * to. Writing the file is left out; only the two strings are modelled.
 *
 * The platform line ending `eol`, the clock reading `now` (milliseconds)
 * and JavaScript's `String(n)` for numbers are parameters.
 */
module Routes {
  import opened Strings
  import opened Js

  /** The platform line endings: a line feed, or a carriage return and a line feed. */
  predicate PlatformEol(eol: string) {
    eol == "\n" || eol == "\r\n"
  }

  /** `String(v).replace(/:/g, '')`: the field's text with every colon removed. */
  function Sanitized(v: JsValue, numberText: real -> string): (r: string)
    ensures ':' !in r
    ensures forall x :: x != ':' ==> multiset(r)[x] == multiset(ToText(v, numberText))[x]
  {
    RemoveChar(ToText(v, numberText), ':')
  }

  /** `String(composed_text).replace(eol, eol + '  ')`: the first line break indented for the YAML block. */
  function TextBlock(v: JsValue, eol: string, numberText: real -> string): string {
    ReplaceFirst(ToText(v, numberText), eol, eol + "  ")
  }

  /** A front matter entry: the key, a colon and a space, and the value. */
  function Field(key: string, value: string): string {
    key + ": " + value
  }

  /** The document's lines, without their line endings. */
  function Lines(body: Body, eol: string, numberText: real -> string): (r: seq<string>)
    ensures |r| == 9 && r[0] == "---" && r[8] == "---"
  {
    ["---",
     Field("email", ToText(Get(body, "email"), numberText)),
     Field("name", Sanitized(Get(body, "name"), numberText)),
     Field("surname", Sanitized(Get(body, "surname"), numberText)),
     Field("organization", Sanitized(Get(body, "organization"), numberText)),
     Field("position", Sanitized(Get(body, "position"), numberText)),
     "text: |",
     TextBlock(Get(body, "composed_text"), eol, numberText),
     "---"]
  }

  /** Each line followed by the line ending. */
  function Terminated(lines: seq<string>, eol: string): string {
    if lines == [] then "" else Terminated(lines[..|lines| - 1], eol) + lines[|lines| - 1] + eol
  }

  /** The terminated lines start with the first line and its line ending. */
  lemma {:induction false} TerminatedStart(lines: seq<string>, eol: string)
    requires |lines| > 0
    ensures |Terminated(lines, eol)| >= |lines[0]| + |eol|
    ensures Terminated(lines, eol)[..|lines[0]| + |eol|] == lines[0] + eol
    decreases |lines|
  {
    var init := lines[..|lines| - 1];
    if init == [] {
      assert Terminated(init, eol) == "";
    } else {
      TerminatedStart(init, eol);
      assert init[0] == lines[0];
      var t := Terminated(init, eol);
      assert Terminated(lines, eol) == t + (lines[|lines| - 1] + eol);
    }
  }

  /** The terminated lines end with the last line and its line ending. */
  lemma TerminatedEnd(lines: seq<string>, eol: string)
    requires |lines| > 0
    ensures var t := Terminated(lines, eol); var last := lines[|lines| - 1] + eol;
      |t| >= |last| && t[|t| - |last|..] == last
  {
    var t := Terminated(lines, eol);
    var last := lines[|lines| - 1] + eol;
    assert t == Terminated(lines[..|lines| - 1], eol) + last;
  }

  /**
   * `filecontent`: the opening `---`, the entries `email`, `name`,
   * `surname`, `organization` and `position`, the `text: |` block header,
   * the text and the closing `---`, each followed by the line ending. It
   * opens and closes with `---` and a line ending, which frame the YAML
   * front matter.
   */
  function FileContent(body: Body, eol: string, numberText: real -> string): (r: string)
    ensures |r| >= 6 + 2 * |eol|
    ensures r[..3 + |eol|] == "---" + eol
    ensures r[|r| - (3 + |eol|)..] == "---" + eol
  {
    var lines := Lines(body, eol, numberText);
    TerminatedStart(lines, eol);
    TerminatedEnd(lines, eol);
    assert |Terminated(lines, eol)| >= 6 + 2 * |eol| by {
      assert Terminated(lines, eol) == Terminated(lines[..8], eol) + ("---" + eol);
      TerminatedStart(lines[..8], eol);
    }
    Terminated(lines, eol)
  }

  /** Terminating lines is joining them with one more, empty, line after the last. */
  lemma {:induction false} TerminatedIsJoin(lines: seq<string>, eol: string)
    ensures Terminated(lines, eol) == Join(lines + [""], eol)
    decreases |lines|
  {
    if lines != [] {
      var init := lines[..|lines| - 1];
      TerminatedIsJoin(init, eol);
      var xs := lines + [""];
      assert xs[..|xs| - 1] == lines;
      assert (init + [""])[..|init|] == init;
      if init == [] {
        assert lines == [lines[0]];
        assert Join(lines, eol) == lines[0];
      } else {
        assert lines[..|lines| - 1] == init;
        assert Join(init + [""], eol) == Join(init, eol) + eol + "";
      }
    }
  }

  /** Without a line break in the text, the YAML block is the text itself. */
  lemma TextBlockUnbroken(v: JsValue, eol: string, numberText: real -> string)
    requires PlatformEol(eol) && '\n' !in ToText(v, numberText)
    ensures TextBlock(v, eol, numberText) == ToText(v, numberText)
  {
    MissingCharNotContained(ToText(v, numberText), eol, '\n');
  }

  /**
   * Only the first line break of the text is indented: a text of the form
   * `a + eol + b` with no break in `a` becomes `a + eol + "  " + b`, and any
   * later break in `b` is kept as it is, leaving those lines outside the
   * YAML block.
   */
  lemma TextBlockIndentsFirstBreakOnly(a: string, b: string, eol: string, numberText: real -> string)
    requires PlatformEol(eol) && '\n' !in a
    ensures TextBlock(Str(a + eol + b), eol, numberText) == a + eol + "  " + b
  {
    MissingCharNotContained(a, eol, '\n');
    ReplaceFirstOnlyFirst(a, eol, b, eol + "  ");
  }

  /** Sanitizing never leaves a colon and keeps a colon-free field as it is. */
  lemma SanitizedKeepsColonFree(v: JsValue, numberText: real -> string)
    requires ':' !in ToText(v, numberText)
    ensures Sanitized(v, numberText) == ToText(v, numberText)
  {
    RemoveCharAbsent(ToText(v, numberText), ':');
  }

  /** Sanitizing adds no line break. */
  lemma SanitizedUnbroken(v: JsValue, numberText: real -> string)
    requires '\n' !in ToText(v, numberText)
    ensures '\n' !in Sanitized(v, numberText)
  {
    var r := Sanitized(v, numberText);
    assert multiset(r)['\n'] == multiset(ToText(v, numberText))['\n'] == 0;
  }

  /** An absent field is rendered as the text `undefined`. */
  lemma AbsentFieldReadsUndefined(body: Body, field: string, numberText: real -> string)
    requires field !in body
    ensures Sanitized(Get(body, field), numberText) == "undefined"
  {
    SanitizedKeepsColonFree(Get(body, field), numberText);
  }

  /** A line without a line feed holds no line ending. */
  lemma LineUnbroken(line: string, eol: string)
    requires PlatformEol(eol) && '\n' !in line
    ensures !Contains(line, eol)
  {
    MissingCharNotContained(line, eol, '\n');
  }

  /** An entry whose key and value have no line feed has none either. */
  lemma FieldUnbroken(key: string, value: string)
    requires '\n' !in key && '\n' !in value
    ensures '\n' !in Field(key, value)
  {
  }

  /** The fields the document renders. */
  predicate Unbroken(body: Body, numberText: real -> string) {
    '\n' !in ToText(Get(body, "email"), numberText)
    && '\n' !in ToText(Get(body, "name"), numberText)
    && '\n' !in ToText(Get(body, "surname"), numberText)
    && '\n' !in ToText(Get(body, "organization"), numberText)
    && '\n' !in ToText(Get(body, "position"), numberText)
    && '\n' !in ToText(Get(body, "composed_text"), numberText)
  }

  /** When no field holds a line feed, no line does. */
  lemma LinesUnbroken(body: Body, eol: string, numberText: real -> string)
    requires PlatformEol(eol) && Unbroken(body, numberText)
    ensures forall k :: 0 <= k < 9 ==> '\n' !in Lines(body, eol, numberText)[k]
  {
    var ls := Lines(body, eol, numberText);
    FieldUnbroken("email", ToText(Get(body, "email"), numberText));
    SanitizedUnbroken(Get(body, "name"), numberText);
    FieldUnbroken("name", Sanitized(Get(body, "name"), numberText));
    SanitizedUnbroken(Get(body, "surname"), numberText);
    FieldUnbroken("surname", Sanitized(Get(body, "surname"), numberText));
    SanitizedUnbroken(Get(body, "organization"), numberText);
    FieldUnbroken("organization", Sanitized(Get(body, "organization"), numberText));
    SanitizedUnbroken(Get(body, "position"), numberText);
    FieldUnbroken("position", Sanitized(Get(body, "position"), numberText));
    TextBlockUnbroken(Get(body, "composed_text"), eol, numberText);
  }

  /**
   * When no field contains a line feed, the document reads back line by
   * line as exactly the nine lines it was built from, plus the empty text
   * after the final line ending.
   */
  lemma FileContentReadsBack(body: Body, eol: string, numberText: real -> string)
    requires PlatformEol(eol) && Unbroken(body, numberText)
    ensures Split(FileContent(body, eol, numberText), eol) == Lines(body, eol, numberText) + [""]
  {
    var ls := Lines(body, eol, numberText);
    TerminatedIsJoin(ls, eol);
    LinesUnbroken(body, eol, numberText);
    var xs := ls + [""];
    forall k | 0 <= k < |xs|
      ensures !Contains(xs[k], eol)
    {
      LineUnbroken(xs[k], eol);
    }
    SplitJoin(xs, eol);
  }

  /** The directory every submission is written under. */
  const ContentRoot := "/var/www/contact-review/content/"

  /** `String(organization).split(' ')[0]`: the organization's first word. */
  function FirstWord(v: JsValue, numberText: real -> string): (r: string)
    ensures ' ' !in r
    ensures |r| <= |ToText(v, numberText)| && ToText(v, numberText)[..|r|] == r
    ensures ' ' !in ToText(v, numberText) ==> r == ToText(v, numberText)
    ensures |r| < |ToText(v, numberText)| ==> ToText(v, numberText)[|r|] == ' '
  {
    SplitHead(ToText(v, numberText), ' ');
    Split(ToText(v, numberText), " ")[0]
  }

  /** `pathname`: the content root, the timestamp, the organization's first word, and a slash. */
  function Pathname(body: Body, now: nat, numberText: real -> string): string {
    ContentRoot + Decimal(now) + FirstWord(Get(body, "organization"), numberText) + "/"
  }

  /** `fullpathname`: the document's path inside that directory. */
  function FullPathname(body: Body, now: nat, numberText: real -> string): (r: string)
    ensures |r| >= 8 && r[|r| - 8..] == "index.md"
    ensures r[..|r| - 8] == Pathname(body, now, numberText)
  {
    Pathname(body, now, numberText) + "index.md"
  }

  /** A directory path built from a root, a run of digits and a word without spaces. */
  lemma {:induction false} DirectoryPieces(root: string, d: string, w: string)
    requires |d| > 0 && forall k :: 0 <= k < |d| ==> IsDigit(d[k])
    requires ' ' !in w
    ensures var p := root + d + w + "/";
      |p| > |root| + |d|
      && p[..|root|] == root
      && p[|root|..|root| + |d|] == d
      && p[|p| - 1] == '/'
      && ' ' !in p[|root|..]
      && ('/' !in w ==> '/' !in p[|root|..|p| - 1])
  {
    var p := root + d + w + "/";
    assert p == root + (d + w + "/");
    assert p[|root|..] == d + w + "/";
    assert p[|root|..|p| - 1] == d + w;
    forall k | 0 <= k < |d|
      ensures d[k] != ' ' && d[k] != '/'
    {
      assert IsDigit(d[k]);
    }
  }

  /**
   * The directory name lies under the content root, starts with the
   * timestamp's digits, holds no space, and, when the organization's first
   * word has no slash, is a single path segment ending in a slash.
   */
  lemma PathnameShape(body: Body, now: nat, numberText: real -> string)
    ensures var p := Pathname(body, now, numberText);
      |p| > |ContentRoot| + |Decimal(now)|
      && p[..|ContentRoot|] == ContentRoot
      && p[|ContentRoot|..|ContentRoot| + |Decimal(now)|] == Decimal(now)
      && p[|p| - 1] == '/'
      && ' ' !in p[|ContentRoot|..]
    ensures var p := Pathname(body, now, numberText);
      '/' !in FirstWord(Get(body, "organization"), numberText) ==> '/' !in p[|ContentRoot|..|p| - 1]
  {
    DirectoryPieces(ContentRoot, Decimal(now), FirstWord(Get(body, "organization"), numberText));
  }

  /** The timestamp can be read back from the directory name. */
  lemma PathnameTimestamp(body: Body, now: nat, numberText: real -> string)
    ensures var p := Pathname(body, now, numberText);
      |p| >= |ContentRoot| + |Decimal(now)|
      && DecimalValue(p[|ContentRoot|..|ContentRoot| + |Decimal(now)|]) == now
  {
    PathnameShape(body, now, numberText);
    DecimalRoundTrip(now);
  }
}

=== FILE: strings.dfy ===
/**
 * The JavaScript string operations the core relies on, written out over
 * `seq<char>`: `indexOf`, `join`, `split`, `replace` with a string pattern,
 * `replace` with a global one-character pattern, `substring`, and `String(n)`
 * for a non-negative integer.
 */
module Strings {

  /** `pat` occurs in `s` starting at index `i`. */
  predicate OccursAt(s: string, pat: string, i: int) {
    0 <= i && i + |pat| <= |s| && s[i..i + |pat|] == pat
  }

  /** `s.indexOf(pat, from)`: the first index at or after `from` where `pat` occurs, or -1. */
  function IndexOfFrom(s: string, pat: string, from: nat): (r: int)
    ensures r == -1 || (from <= r && OccursAt(s, pat, r))
    ensures r == -1 ==> forall i :: from <= i ==> !OccursAt(s, pat, i)
    ensures r != -1 ==> forall i :: from <= i < r ==> !OccursAt(s, pat, i)
    decreases |s| - from
  {
    if from + |pat| > |s| then -1
    else if s[from..from + |pat|] == pat then from
    else IndexOfFrom(s, pat, from + 1)
  }

  /** `s.indexOf(pat)`. */
  function IndexOf(s: string, pat: string): int {
    IndexOfFrom(s, pat, 0)
  }

  /** `s.indexOf(pat) !== -1`. */
  predicate Contains(s: string, pat: string) {
    IndexOf(s, pat) != -1
  }

  lemma ContainsIff(s: string, pat: string)
    ensures Contains(s, pat) <==> exists i :: OccursAt(s, pat, i)
  {
    if Contains(s, pat) {
      assert OccursAt(s, pat, IndexOf(s, pat));
    }
  }

  /** A pattern with a character the string lacks does not occur in it. */
  lemma MissingCharNotContained(s: string, pat: string, c: char)
    requires c in pat && c !in s
    ensures !Contains(s, pat)
  {
    var k :| 0 <= k < |pat| && pat[k] == c;
    forall i | 0 <= i && i + |pat| <= |s|
      ensures !OccursAt(s, pat, i)
    {
      assert s[i..i + |pat|][k] == s[i + k] != pat[k];
    }
  }

  /** The two halves of a concatenation can be cut out again. */
  lemma ConcatPrefix(a: string, b: string)
    ensures |a| <= |a + b| && (a + b)[..|a|] == a && (a + b)[|a|..] == b
  {
  }

  /** Concatenation does not depend on grouping. */
  lemma Regroup(a: string, b: string, c: string, d: string, e: string)
    ensures a + (b + c + d + e) == a + b + c + d + e
  {
  }

  /** A string that starts with `p` is `p` followed by the rest. */
  lemma PrefixSplit(s: string, p: string)
    requires |p| <= |s| && s[..|p|] == p
    ensures s == p + s[|p|..]
  {
  }

  /** A string starting with the pattern contains it. */
  lemma PrefixContained(pat: string, t: string)
    ensures Contains(pat + t, pat)
  {
    assert (pat + t)[0..|pat|] == pat;
    assert OccursAt(pat + t, pat, 0);
  }

  /** No proper suffix of `sep` starts with `sep[0]`, so two occurrences of `sep` never overlap. */
  predicate HeadIsUnique(sep: string) {
    |sep| > 0 && forall k :: 0 < k < |sep| ==> sep[k] != sep[0]
  }

  /**
   * If `x` does not contain `sep` and `sep` cannot overlap itself, then the
   * first occurrence of `sep` in `x + sep + t` is the one right after `x`.
   */
  lemma {:induction false} FirstOccurrenceAfter(x: string, sep: string, t: string)
    requires HeadIsUnique(sep) && !Contains(x, sep)
    ensures IndexOf(x + sep + t, sep) == |x|
  {
    var s := x + sep + t;
    assert s[|x|..|x| + |sep|] == sep;
    assert OccursAt(s, sep, |x|);
    forall i | 0 <= i < |x|
      ensures !OccursAt(s, sep, i)
    {
      if i + |sep| <= |x| {
        assert s[i..i + |sep|] == x[i..i + |sep|];
        assert !OccursAt(x, sep, i);
      } else {
        var k := |x| - i;
        assert s[i..i + |sep|][k] == s[|x|] == sep[0] != sep[k];
      }
    }
  }

  /** `xs.join(sep)`. */
  function Join(xs: seq<string>, sep: string): string {
    if |xs| == 0 then ""
    else if |xs| == 1 then xs[0]
    else Join(xs[..|xs| - 1], sep) + sep + xs[|xs| - 1]
  }

  /** Joining reads left to right: the first element, then the separator, then the rest joined. */
  lemma {:induction false} JoinCons(x: string, xs: seq<string>, sep: string)
    requires |xs| > 0
    ensures Join([x] + xs, sep) == x + sep + Join(xs, sep)
    decreases |xs|
  {
    var ys := [x] + xs;
    if |xs| == 1 {
      assert ys[..1] == [x];
    } else {
      assert ys[..|ys| - 1] == [x] + xs[..|xs| - 1];
      JoinCons(x, xs[..|xs| - 1], sep);
    }
  }

  /** `s.split(sep)` for a non-empty separator. */
  function Split(s: string, sep: string): (r: seq<string>)
    requires |sep| > 0
    ensures |r| > 0
    decreases |s|
  {
    var i := IndexOf(s, sep);
    if i == -1 then [s] else [s[..i]] + Split(s[i + |sep|..], sep)
  }

  /** Splitting undoes joining when no element contains the separator. */
  lemma {:induction false} SplitJoin(xs: seq<string>, sep: string)
    requires |xs| > 0 && HeadIsUnique(sep)
    requires forall k :: 0 <= k < |xs| ==> !Contains(xs[k], sep)
    ensures Split(Join(xs, sep), sep) == xs
    decreases |xs|
  {
    if |xs| > 1 {
      var rest := xs[1..];
      assert xs == [xs[0]] + rest;
      JoinCons(xs[0], rest, sep);
      var s := xs[0] + sep + Join(rest, sep);
      FirstOccurrenceAfter(xs[0], sep, Join(rest, sep));
      assert s[..|xs[0]|] == xs[0];
      assert s[|xs[0]| + |sep|..] == Join(rest, sep);
      SplitJoin(rest, sep);
    }
  }

  /**
   * `s.split(c)[0]` for a one-character separator: the longest prefix of
   * `s` without `c`, which is all of `s` when `c` does not occur.
   */
  lemma SplitHead(s: string, c: char)
    ensures var w := Split(s, [c])[0];
      c !in w && |w| <= |s| && s[..|w|] == w && (|w| < |s| ==> s[|w|] == c)
    ensures c !in s ==> Split(s, [c])[0] == s
  {
    var i := IndexOf(s, [c]);
    var w := Split(s, [c])[0];
    forall j | 0 <= j < |w|
      ensures w[j] != c
    {
      assert !OccursAt(s, [c], j);
      assert s[j..j + 1] == [s[j]];
    }
    if i != -1 {
      assert OccursAt(s, [c], i);
      assert s[i..i + 1] == [s[i]];
    }
    if c !in s {
      MissingCharNotContained(s, [c], c);
    }
  }

  /** `s.replace(pat, rep)` with a string pattern: only the first occurrence is replaced. */
  function ReplaceFirst(s: string, pat: string, rep: string): string {
    var i := IndexOf(s, pat);
    if i == -1 then s else s[..i] + rep + s[i + |pat|..]
  }

  /** Only the first occurrence is replaced; everything after it, other occurrences included, is kept. */
  lemma ReplaceFirstOnlyFirst(a: string, pat: string, b: string, rep: string)
    requires HeadIsUnique(pat) && !Contains(a, pat)
    ensures ReplaceFirst(a + pat + b, pat, rep) == a + rep + b
  {
    var s := a + pat + b;
    FirstOccurrenceAfter(a, pat, b);
    assert s[..|a|] == a;
    assert s[|a| + |pat|..] == b;
  }

  /** Without an occurrence, replacing changes nothing. */
  lemma ReplaceFirstAbsent(s: string, pat: string, rep: string)
    requires !Contains(s, pat)
    ensures ReplaceFirst(s, pat, rep) == s
  {
  }

  /** `s.replace(/c/g, "")`: every occurrence of the character removed. */
  function RemoveChar(s: string, c: char): (r: string)
    ensures c !in r
    ensures |r| <= |s|
    ensures forall x :: x != c ==> multiset(r)[x] == multiset(s)[x]
  {
    if s == [] then []
    else
      var rest := RemoveChar(s[1..], c);
      assert s == [s[0]] + s[1..];
      if s[0] == c then rest else [s[0]] + rest
  }

  /** Removal works piece by piece, so the kept characters stay in their order. */
  lemma {:induction false} RemoveCharConcat(a: string, b: string, c: char)
    ensures RemoveChar(a + b, c) == RemoveChar(a, c) + RemoveChar(b, c)
    decreases |a|
  {
    if a != [] {
      assert (a + b)[1..] == a[1..] + b;
      RemoveCharConcat(a[1..], b, c);
    } else {
      assert a + b == b;
    }
  }

  /** A string without the character is left as it is, so removal is idempotent. */
  lemma {:induction false} RemoveCharAbsent(s: string, c: char)
    requires c !in s
    ensures RemoveChar(s, c) == s
    decreases |s|
  {
    if s != [] {
      RemoveCharAbsent(s[1..], c);
    }
  }

  /**
   * `s.substring(start, end)` for integer arguments: both clamped to
   * `[0, |s|]`, then swapped if reversed. The result is the slice from the
   * smaller argument to the larger one, each clamped to the text.
   */
  function Substring(s: string, start: int, end: int): (r: string)
    ensures |r| <= |s|
    ensures var lo := if start <= end then start else end;
      var hi := if start <= end then end else start;
      var i := if lo < 0 then 0 else if lo > |s| then |s| else lo;
      var j := if hi < 0 then 0 else if hi > |s| then |s| else hi;
      i <= j && r == s[i..j]
    ensures 0 <= start <= end <= |s| ==> r == s[start..end]
  {
    var a := if start < 0 then 0 else if start > |s| then |s| else start;
    var b := if end < 0 then 0 else if end > |s| then |s| else end;
    if a <= b then s[a..b] else s[b..a]
  }

  /** The decimal digit for `d`. */
  function Digit(d: nat): char
    requires d < 10
  {
    "0123456789"[d]
  }

  predicate IsDigit(c: char) {
    '0' <= c <= '9'
  }

  /** `String(n)` for a non-negative integer: its decimal digits. */
  function Decimal(n: nat): (r: string)
    ensures |r| > 0
    ensures forall k :: 0 <= k < |r| ==> IsDigit(r[k])
  {
    if n < 10 then [Digit(n)] else Decimal(n / 10) + [Digit(n % 10)]
  }

  /** The number that a string of decimal digits denotes. */
  function DecimalValue(s: string): int
    requires forall k :: 0 <= k < |s| ==> IsDigit(s[k])
  {
    if s == [] then 0 else 10 * DecimalValue(s[..|s| - 1]) + (s[|s| - 1] as int - '0' as int)
  }

  /** Reading the digits back gives the number. */
  lemma {:induction false} DecimalRoundTrip(n: nat)
    ensures DecimalValue(Decimal(n)) == n
  {
    if n >= 10 {
      var s := Decimal(n);
      assert s[..|s| - 1] == Decimal(n / 10);
      DecimalRoundTrip(n / 10);
    }
  }
}

=== FILE: types.dfy ===
/**
 * The record types the handlers exchange: table schemas, rows, UPDATE and
 * SELECT descriptions, and the data a finished SELECT leaves behind.
 */
module Types {
  import opened Wrappers
  import opened Js

  /** One column of a table schema: its name and its SQLite type declaration. */
  datatype TableField = TableField(column: string, dataType: string)

  /** A table as the registration handler receives it: its schema and its write-protected column names. */
  datatype TableDef = TableDef(fields: seq<TableField>, protected: seq<string>)

  /** A stored value is exactly a string, a number or null. */
  predicate IsData(v: JsValue) {
    v.Str? || v.Num? || v.Null?
  }

  type Data = v: JsValue | IsData(v) witness Null

  type RowType = seq<Data>

  /** Column names and rows of values; the nth value of a row belongs to the nth column. */
  datatype RowFields = RowFields(columns: seq<string>, rows: seq<RowType>)

  /** `set`: a column and the value it is compared with or assigned. */
  datatype Assignment = Assignment(column: string, data: Data)

  /** An UPDATE: the assignments to make, where one column equals one value. */
  datatype RowFieldUpdate = RowFieldUpdate(sets: seq<Assignment>, where: Assignment)

  /** The comparison operators a SELECT condition may use. */
  datatype Operator = Eq | Ne | NotEq | Lt | Gt | Le | Ge | NoOperator

  function OperatorText(op: Operator): string {
    match op
    case Eq => "="
    case Ne => "<>"
    case NotEq => "!="
    case Lt => "<"
    case Gt => ">"
    case Le => "<="
    case Ge => ">="
    case NoOperator => ""
  }

  /** Reading an operator from its text; anything outside the list is refused. */
  function ParseOperator(s: string): (r: Option<Operator>)
    ensures r.Some? <==> s in {"=", "<>", "!=", "<", ">", "<=", ">=", ""}
  {
    if s == "=" then Some(Eq)
    else if s == "<>" then Some(Ne)
    else if s == "!=" then Some(NotEq)
    else if s == "<" then Some(Lt)
    else if s == ">" then Some(Gt)
    else if s == "<=" then Some(Le)
    else if s == ">=" then Some(Ge)
    else if s == "" then Some(NoOperator)
    else None
  }

  /** The operator text and the operator determine each other. */
  lemma OperatorRoundTrip(op: Operator, s: string)
    ensures ParseOperator(OperatorText(op)) == Some(op)
    ensures ParseOperator(s) == Some(op) ==> OperatorText(op) == s
  {
  }

  /** The simple comparison of a WHERE: `column operator data`. */
  datatype SelectQuery = SelectQuery(column: string, data: string, operator: Operator)

  /** The relations an extra condition may be joined with. */
  datatype ConditionType = All | And | Any | Between | Exists | In | Like | Not | Or | NoCondition

  function ConditionText(c: ConditionType): string {
    match c
    case All => "ALL"
    case And => "AND"
    case Any => "ANY"
    case Between => "BETWEEN"
    case Exists => "EXISTS"
    case In => "IN"
    case Like => "LIKE"
    case Not => "NOT"
    case Or => "OR"
    case NoCondition => ""
  }

  function ParseCondition(s: string): (r: Option<ConditionType>)
    ensures r.Some? <==> s in {"ALL", "AND", "ANY", "BETWEEN", "EXISTS", "IN", "LIKE", "NOT", "OR", ""}
  {
    if s == "ALL" then Some(All)
    else if s == "AND" then Some(And)
    else if s == "ANY" then Some(Any)
    else if s == "BETWEEN" then Some(Between)
    else if s == "EXISTS" then Some(Exists)
    else if s == "IN" then Some(In)
    else if s == "LIKE" then Some(Like)
    else if s == "NOT" then Some(Not)
    else if s == "OR" then Some(Or)
    else if s == "" then Some(NoCondition)
    else None
  }

  /** The condition text and the condition determine each other. */
  lemma ConditionRoundTrip(c: ConditionType, s: string)
    ensures ParseCondition(ConditionText(c)) == Some(c)
    ensures ParseCondition(s) == Some(c) ==> ConditionText(c) == s
  {
  }

  /** An extra condition of a WHERE and the relation that joins it on. */
  datatype ExtraSelectQuery = ExtraSelectQuery(conditionType: ConditionType, conditionQuery: SelectQuery)

  /** A WHERE: one mandatory comparison and optionally more conditions. */
  datatype WhereClause = WhereClause(query: SelectQuery, extraConditions: Option<seq<ExtraSelectQuery>>)

  /** A SELECT: the columns to read and the WHERE that picks the rows. */
  datatype SelectField = SelectField(columnsToSelect: seq<string>, where: WhereClause)

  /** One result row: its values by column, in the order the columns were selected. */
  type Row = seq<(string, JsValue)>

  /** What a SELECT hands back: nothing, a single row, or a list of rows. */
  datatype SelectResult = NoResult | OneRow(entries: Row) | ManyRows(rows: seq<Row>)

  /** What a finished SELECT leaves for its callback: error message (if any), result, query text and request. */
  datatype CallbackData = CallbackData(error: Option<string>, result: SelectResult, query: string, data: SelectField)
}

=== FILE: wrappers.dfy ===
/** The optional value used for the parser's missing marker and for optional record parts. */
module Wrappers {

  datatype Option<+T> = None | Some(value: T)
}
